=== FILE: README.md ===
# Quotes API backend — a Dafny model

This project models the request-handling core of a small quotes service. The
service is an Express application over MongoDB through Mongoose. It covers:

- the **account lifecycle**: register, activate by e-mailed token, log in, read
  the own profile, change password, delete the account;
- the **auth guard** (`protect`): bearer-header parsing, JWT verification and
  loading the caller;
- the **quote handlers**: create, list, list by creator, read, and the
  owner-only edit and delete;
- the **user and quote schemas**: required fields, minimum lengths, the
  lowercase e-mail setter, unique indexes, defaults, the pre-save password hook,
  `checkPassword` and the JWT claims;
- the **route tables**: which routes exist, their order, and which run the guard.

Every handler is a pure function from the store and the request parts to a
`Reply`. A reply is the outcome (`Ok(status, message, data)`, `Fail(error)`, or
`Unmatched` when no route applies) together with the store afterwards. The
store is `Db(users, quotes)`, held in natural (insertion) order. So `findOne`
returns the first match, and `find` is an order-preserving filter.

Cryptography and the e-mail validator are uninterpreted. They are function
values in an `Env`: SHA-256 hex digest, bcrypt hash and compare, JWT sign and
decode, `isEmail`. The ghost predicate `Externals.Sound` states the only facts
the proofs rely on:

- the digest is injective;
- `compare(p, hash(p, salt))` holds;
- decoding a signed payload gives that payload back.

The clock and randomness are an `Entropy` value passed to each handler:

- the current time, and the time the schemas were loaded;
- the new document id;
- the 20 random token bytes;
- the bcrypt salt nonce.

Thrown library errors are carried as `Raised(kind)`: validation (with the
failing paths), cast, duplicate key, JWT invalid or expired, bcrypt illegal
arguments, and type error.

The model follows the code where the design description says otherwise:

- The two 401 login messages differ: an unknown e-mail gets
  `Invalid credentials!` and a wrong password gets `Invalid credentials`.
- The activation e-mail's `send` returns a promise. A promise is always truthy,
  so registration replies 200 whatever happens to delivery. A delivery failure
  never reaches the client.
- The pre-save hook calls `next()` without returning. With an unmodified
  password it goes on to rehash and calls `next()` again. Only the first call
  counts, so nothing is written. When the password was not loaded, bcrypt's
  rejection is ignored.
- `getQuoteById` is public although its comment says private.
- `createdAt` is the time the schema was loaded, not the creation time: the
  default is `Date.now()`, called once. See "## Findings".
- Express matches route literals without regard to case, so `/ME` reaches `me`.
  A single segment such as `register` on GET is a username lookup.
- A mount matches its prefix non-strictly: one trailing slash is ignored, and
  a slash doubled right after the prefix is taken along with it, so
  `/api/v1/users//me` reaches `me` and `/api/v1/quotes//` the quote listing.

## Model

| member | source | states |
|---|---|---|
| Seqs.Reverse | controllers/quoteControllers.js:37 | element i of the result is element n-1-i of the input, same length |
| Text.ToLower | models/User.js:25 | the lowercase setter keeps the length, leaves no ASCII capital and changes no other character |
| Text.ToLowerIdempotent | models/User.js:25 | lowercasing an already-lowercase string changes nothing, so the setter applied twice equals once |
| Text.EqualsIgnoringCaseLower | routes/userRoutes.js:13 | character-wise case-insensitive equality holds exactly when the two lowercasings are equal |
| Text.Split | middlewares/auth.js:14 | `split(' ')` yields at least one field and no field contains the separator |
| Text.JoinSplit | middlewares/auth.js:14 | joining the fields of a split gives back the header |
| Text.SplitJoin | middlewares/auth.js:14 | splitting a join of separator-free fields gives back exactly those fields |
| Text.HexEncode | controllers/userControllers.js:27 | the raw activation token is two lowercase hex digits per random byte |
| Text.HexEncodeInjective | controllers/userControllers.js:27 | different random bytes give different raw tokens |
| Text.CastObjectId | controllers/quoteControllers.js:58 | an id parameter casts exactly when it is 24 hex digits of either case, to the lowercased id |
| Text.CastCanonical | controllers/quoteControllers.js:58 | a canonical id casts to itself |
| UserModel.PreSave | models/User.js:53-61 | the hook fails only for a modified but missing password; it writes a hash exactly when the password is modified; unmodified with a loaded password, `next` is called twice |
| UserModel.CheckPassword | models/User.js:64-66 | bcrypt rejects exactly a missing candidate; a present candidate gets the library's comparison with the stored hash |
| UserModel.HashedPasswordChecks | models/User.js:53-66 | after a save that hashes a new password, `checkPassword` accepts that password |
| UserModel.WellFormedRevalidates | models/User.js:6-33 | a stored well-formed user passes the profile validators again on a later save |
| UserModel.NewUser | models/User.js:6-50 | creation succeeds exactly when every path is valid; the new user has lowercased e-mail, hashed password, is inactive, holds the given digest, and gets the `createdAt` of the default as written: the time the schema was loaded |
| UserModel.NewUserWellFormed | models/User.js:6-50 | a created user satisfies every schema constraint and is pending activation |
| UserModel.SessionClaims | models/User.js:68-78 | the signed payload carries the user's id, names, username and e-mail, is issued in the current second and expires 3600 s later |
| UserModel.SignedJwt | models/User.js:68-78 | with sound libraries, the token decodes to exactly the user's session claims |
| UserModel.SessionTokenClaims | models/User.js:68-78 | a session token decodes to exactly id, names, username and e-mail, expiring 3600 s after issue |
| UserModel.CreatedAtFrozenAsWritten | models/User.js:34-37 | with the default as written, documents created at any two times get the same `createdAt` |
| UserModel.CreatedAtTracksCreation | models/User.js:34-37 | with the corrected default, `createdAt` values are equal exactly when the creation times are |
| QuoteModel.NewQuote | models/Quote.js:3-22 | a quote is created exactly when text has at least 10 characters, author is non-empty and the creator is given; it carries those values and the `createdAt` of the default as written: the time the schema was loaded |
| Store.FindUserById | controllers/userControllers.js:149 | the position of the first user with that id, or none when no user has it |
| Store.FindUserByEmail | controllers/userControllers.js:95 | the filter is lowercased before matching; a missing e-mail matches nobody; otherwise the first user with that e-mail |
| Store.FindUserByUsername | controllers/userControllers.js:131 | the first user with exactly that username, or none |
| Store.FindUserByActivationToken | controllers/userControllers.js:68 | the first user holding that digest, or none when nobody does |
| Store.FindQuoteById | controllers/quoteControllers.js:76 | the first quote with that id, or none |
| Store.QuotesBy | controllers/quoteControllers.js:45 | every listed quote is stored and by that creator, and every stored quote by that creator is listed |
| Store.InsertUser | models/User.js:15-27 | a clash on id, username or e-mail is a duplicate-key error; otherwise exactly the new user is appended |
| Store.InsertQuote | controllers/quoteControllers.js:11-15 | a clash on id is a duplicate-key error; otherwise exactly the new quote is appended |
| Store.InsertUserPreservesValid | models/User.js:15-27 | appending a well-formed user keeps all stored users well formed and ids, usernames and e-mails unique |
| Store.InsertQuotePreservesValid | models/Quote.js:3-22 | appending a well-formed quote keeps the quote store valid |
| Store.SaveUserPreservesValid | controllers/userControllers.js:74-76 | saving in place a well-formed user with the same id, username and e-mail keeps the store valid |
| Store.SaveQuotePreservesValid | controllers/quoteControllers.js:86-88 | saving in place a well-formed quote with the same id keeps the store valid |
| Store.RemoveUserPreservesValid | controllers/userControllers.js:193 | removing one user keeps the store valid |
| Store.RemoveQuotePreservesValid | controllers/quoteControllers.js:113 | removing one quote keeps the store valid |
| Store.UniqueUserId | models/User.js:6 | in a valid store two positions holding the same user id are the same position |
| Http.Populate | controllers/quoteControllers.js:32 | a listed quote keeps its document, and carries a creator exactly when a user with that id exists; the creator carried is the summary of the first user with that id |
| Auth.ExtractToken | middlewares/auth.js:12-15 | a truthy header starting with `Bearer` that has a space yields its second space-separated field; any other header yields no token |
| Auth.VerifyJwt | middlewares/auth.js:23 | verification succeeds exactly when the token decodes and has not expired; otherwise it is invalid or expired |
| Auth.Protect | middlewares/auth.js:8-34 | no token gives 401; a failed verification gives that error; a verified id that no user has gives 404; otherwise the caller admitted is the first stored user with the token's id |
| Auth.BearerRoundTrip | middlewares/auth.js:12-15 | `Bearer <t>` yields exactly `t` for any non-empty token without spaces |
| Auth.BareBearerRefused | middlewares/auth.js:18-20 | a header that is exactly `Bearer` is refused with 401 |
| Auth.IssuedTokenAdmits | middlewares/auth.js:23-33 | a token issued to a stored user admits that user within the hour |
| Auth.ExpiredTokenRefused | middlewares/auth.js:23 | the same token an hour or more later is refused as expired |
| UserControllers.Register | controllers/userControllers.js:10-60 | the checks run in order: unequal passwords, e-mail in use, then username taken, each 400 with the store unchanged. Success needs all checks and validation to pass; it appends a pending user holding the SHA-256 digest of the token and replies with exactly id, e-mail, names and username |
| UserControllers.ActivateAccount | controllers/userControllers.js:65-83 | an unknown digest gives 400 with the store unchanged; otherwise the first holder of the digest is revalidated and, when it passes, becomes active with the digest cleared, and nothing else changes |
| UserControllers.RawActivationToken | controllers/userControllers.js:27 | the e-mailed token is 40 lowercase hex digits, two per random byte |
| UserControllers.TokenResponse | controllers/userControllers.js:203-211 | 200 with `Login successfull!` and a token that, with sound libraries, decodes to the user's session claims |
| UserControllers.Login | controllers/userControllers.js:88-112 | missing field 400, unknown e-mail 401 with `!`, wrong password 401 without it, right password on an inactive account 400, in that order; success issues the token of the active user with that e-mail |
| UserControllers.Me | controllers/userControllers.js:117-123 | 200 with the caller's profile: its identity fields and `createdAt`, and as `quotes` the stored quotes the caller created, in store order |
| UserControllers.GetUserByUsername | controllers/userControllers.js:128-141 | 404 exactly when no user has that username; otherwise that user's profile |
| UserControllers.UpdateUser | controllers/userControllers.js:146-175 | cast error, 404, 403 for another user; for the caller's own id, a missing old password is a bcrypt error, a wrong one 400 `Incorrect password!`, an invalid new password a validation error, and otherwise 200 with only the caller's password changed |
| UserControllers.DeleteUser | controllers/userControllers.js:180-200 | cast error, 404, 403 for another user; the caller's own id succeeds, removing exactly the caller and leaving the quotes untouched |
| Lifecycle.RegisterPreservesValid | controllers/userControllers.js:10-60 | registration keeps the store valid |
| Lifecycle.ActivateAccountPreservesValid | controllers/userControllers.js:65-83 | activation keeps the store valid |
| Lifecycle.UpdateUserPreservesValid | controllers/userControllers.js:146-175 | a password change keeps the store valid |
| Lifecycle.DeleteUserPreservesValid | controllers/userControllers.js:180-200 | deleting an account keeps the store valid |
| Lifecycle.ActivationSingleUse | controllers/userControllers.js:67-76 | once a token has activated the only holder of its digest, presenting it again gives 400 and changes nothing |
| Lifecycle.ActivationMatchesIssuedToken | controllers/userControllers.js:65-76 | the account a token activates, the first holder of its SHA-256 digest, holds the digest of an issued token only when that token is the one presented, however many other accounts are pending; a successful activation turns that holder active and clears its digest |
| Lifecycle.ActivationSucceedsForHolder | controllers/userControllers.js:65-83 | in a valid store, a token whose digest some account holds activates the first holder |
| Lifecycle.PasswordChangeSucceeds | controllers/userControllers.js:146-175 | in a valid store, the caller with the right old password and a valid new one gets 200, and only its password changes |
| Lifecycle.PasswordChangeTakesEffect | controllers/userControllers.js:159-168 | after a successful change, `checkPassword` accepts the new password, unless it equals the stored hash, in which case nothing changes |
| Lifecycle.CredentialFailuresDiffer | controllers/userControllers.js:97-105 | unknown e-mail and wrong password both give 401 but with different messages |
| Lifecycle.InactiveWrongPasswordIs401 | controllers/userControllers.js:101-109 | an inactive account with a wrong password gets 401, not 400 |
| Lifecycle.RegisteredAccountFoundByEmail | controllers/userControllers.js:17-36 | after registration, the e-mail lookup with the registered address finds the new account |
| Lifecycle.RegisteredUserFoundByUsername | controllers/userControllers.js:128-141 | after registration, looking up the registered username returns the new account's profile |
| Lifecycle.LoginIssuesToken | controllers/userControllers.js:88-112 | an active account found by e-mail whose stored hash accepts the password gets 200 with a session token for that account |
| Lifecycle.LoginBeforeActivation | controllers/userControllers.js:107-109 | logging in with the registered credentials before activation is refused as inactive |
| Lifecycle.ActivationOfRegistered | controllers/userControllers.js:65-83 | the e-mailed token activates the new account when no older account holds the same digest |
| Lifecycle.LoginAfterActivation | controllers/userControllers.js:88-112 | after activation, login with the registered credentials issues a session token for the account |
| Lifecycle.RegisterActivateLoginMe | controllers/userControllers.js:10-123 | register, activate, log in, then call `me` with the token: each step succeeds and `me` returns the new user's profile |
| QuoteControllers.NewestFirst | controllers/quoteControllers.js:37 | the listing is the populated quotes, last stored first |
| QuoteControllers.AddQuote | controllers/quoteControllers.js:8-26 | 201 exactly when the schema passes and the id is fresh; appends one quote by the caller with the body's text and author and the schema-load `createdAt`; failures change nothing |
| QuoteControllers.GetQuotes | controllers/quoteControllers.js:31-39 | `results` is the number of quotes and the list is every stored quote, newest first, each populated with its creator |
| QuoteControllers.GetQuotesByUserId | controllers/quoteControllers.js:44-52 | cast error exactly for a malformed id; otherwise exactly the stored quotes by that creator, newest first, populated, with their count |
| QuoteControllers.GetQuoteById | controllers/quoteControllers.js:57-68 | cast error, 404 when no quote has the id, otherwise the first stored quote with that id, populated with its creator |
| QuoteControllers.EditQuote | controllers/quoteControllers.js:73-95 | cast error, 404, 403 for a non-owner; for the owner, a body failing the schema is a validation error and a valid one gives 200 with only the text and author of that one quote changed |
| QuoteControllers.DeleteQuote | controllers/quoteControllers.js:100-120 | cast error, 404, 403 for a non-owner; the owner succeeds, and exactly that quote is removed and returned, users untouched |
| QuoteControllers.AddQuotePreservesValid | controllers/quoteControllers.js:8-26 | creating a quote keeps the store valid |
| QuoteControllers.EditQuotePreservesValid | controllers/quoteControllers.js:73-95 | editing a quote keeps the store valid |
| QuoteControllers.DeleteQuotePreservesValid | controllers/quoteControllers.js:100-120 | deleting a quote keeps the store valid |
| QuoteControllers.AddedQuoteListedFirst | controllers/quoteControllers.js:31-50 | a new quote heads the full listing and its creator's listing, and is appended to its creator's quotes |
| QuoteControllers.AddedQuoteFoundById | controllers/quoteControllers.js:57-68 | a new quote can be fetched by its id, populated with its creator |
| Routes.SegmentsOf | server.js:40-41 | the segments rebuild the request path, with one trailing slash ignored, and none contains a slash |
| Routes.SegmentsOfPathOf | server.js:40-41 | a path built from slash-free segments yields those segments, with or without a trailing slash |
| Routes.RouteIn | routes/quoteRoutes.js:7-12 | no route exactly when none matches; otherwise the first matching route in registration order, with its parameter |
| Routes.Resolve | server.js:40-41 | a path under no mount gets no route; under the first matching mount, the route is exactly that router's choice on the path below the prefix, one empty segment right after the prefix being taken with it |
| Routes.ResolveUnder | server.js:40-41 | a path at or below a mount point, the bare prefix included, is resolved by that mount's router |
| Routes.MountRoots | routes/quoteRoutes.js:7-8 | POST on `/api/v1/quotes` reaches the guarded quote creation, GET there the full listing, and GET on `/api/v1/users` the user router's root |
| Routes.SlashesAtMountRoot | server.js:40-41 | at a mount root, a trailing slash or a doubled one reaches the same route as the bare prefix |
| Routes.DoubledSlashAfterMount | server.js:40-41 | a doubled slash right after a mount prefix (`/api/v1/users//me`) reaches the same route as a single one |
| Routes.MeShadowsUsername | routes/userRoutes.js:14-15 | GET `/me`, in any case, reaches the guarded `me` and never the username lookup |
| Routes.UsernameRoute | routes/userRoutes.js:11-15 | any other single segment on GET, `register` included, is a public username lookup |
| Routes.UserQuotesRoute | routes/quoteRoutes.js:9-10 | GET `/user/x` reaches the public listing by creator, not `/:id` |
| Routes.QuoteByIdRoute | routes/quoteRoutes.js:9 | any single segment on GET, `user` included, is a public lookup by quote id |
| Routes.Run | routes/userRoutes.js:7-17 | a handler that needs a caller and has none fails with a type error; the read-only handlers never change the store |
| Routes.Dispatch | routes/userRoutes.js:14-17 | no route gives the fall-through; on a guarded route a refusal ends the request with the store unchanged, otherwise the handler runs with the admitted caller; a public route runs without one |
| Routes.GuardedExactlyWhenCallerNeeded | routes/quoteRoutes.js:7-12 | a route is guarded exactly when its handler reads the caller: `me`, both PATCH and DELETE routes, and quote creation |
| Routes.NoHandlerLacksCaller | routes/userRoutes.js:14-17 | no request reaches a handler without the caller it needs |
| Routes.PublicRoutesIgnoreAuthorization | routes/quoteRoutes.js:8-10 | on a public route the reply does not depend on the Authorization header |
| Routes.ReadRoutesAreGets | routes/userRoutes.js:7-15 | the GET routes lead to the root text, activation, `me` and the read handlers only |
| Routes.GetWritesOnlyOnActivation | routes/userRoutes.js:13 | a GET request that changes the store went to account activation |
| Routes.DispatchPreservesValid | server.js:40-41 | every request keeps the store valid |

## Left out

- server.js middleware and config/database.js: the body parser, CORS, helmet, xss-clean, hpp, mongo-sanitize and the database connection are I/O wiring. A request body is a map of strings, so numbers, arrays and objects in a body are not modelled.
- middlewares/errorHandler.js is not part of this model: a thrown error is carried as its kind, and the status and text it would map to are not.
- utils/Email.js is not part of this model. Because `send` returns a promise, which is always truthy, the model treats delivery as an effect that never changes the reply. The catch at controllers/userControllers.js:57-58 only fires on a synchronous throw, and that is not modelled.
- The `if(!user)` and `if(!quote)` branches answering 500 (controllers/userControllers.js:38-40, controllers/quoteControllers.js:17-19) are not modelled: `create` resolves to a document or throws.
- Cryptography, `crypto.randomBytes`, `validator.isEmail` and the clock are parameters (`Env`, `Entropy`). Their internals are not modelled; the model relies only on the three facts stated by `Externals.Sound`.
- UserModel.NewUser: the minimum lengths of username (5) and password (6) count Unicode scalar values, while Mongoose's `minlength` counts UTF-16 code units, so a string with characters outside the Basic Multilingual Plane can be refused here and accepted by the program (three emoji are a 6-unit password).
- QuoteModel.NewQuote: the 10-character minimum on the text counts Unicode scalar values, not UTF-16 code units, with the same consequence for characters outside the Basic Multilingual Plane.
- UserControllers.UpdateUser: the 6-character minimum on the new password counts Unicode scalar values, not UTF-16 code units.
- Text.ToLower: only ASCII letters are lowercased; Unicode case mapping is not modelled.
- Text.CastObjectId: the 12-character string form of an ObjectId is not accepted.
- Routes.Resolve: percent-decoding of parameters, query strings, `HEAD` answered by GET routes and the automatic `OPTIONS` reply are not modelled. Those requests get no route.
- Routes.Argument: a pattern carries at most one parameter, which holds for every route in both tables.
- Serialisation is not modelled: `toObject`/`toJSON`, the `id` virtual, `__v`, and field selection (`select: false` on password, active and activation token). Replies carry the documents or summaries.
- Validation messages are not modelled; a validation error carries the set of failing paths.
- Concurrency: requests are handled one at a time. The race of two simultaneous activations is outside the model.
- The `quotes` populated on the caller by `protect` (middlewares/auth.js:26) is recomputed from the same store when `me` builds the profile.

## Findings

| source | as written | input that shows it | evidently intended | confidence | as-written member | corrected member |
|---|---|---|---|---|---|---|
| models/User.js:34-37 | `default: Date.now()` is evaluated once, when the schema is built; models/Quote.js:18-21 does the same | two users, or two quotes, created an hour apart in one process get the same `createdAt`: the time the process loaded the schema | `default: Date.now`, a function called at each creation | high; not executed | UserModel.CreatedAtFrozenAsWritten | UserModel.CreatedAtTracksCreation |

`createdAt` is visible in every profile and quote reply, so the handlers keep the default as written (`UserModel.DefaultCreatedAtAsWritten`) and their replies match the program's. `UserModel.DefaultCreatedAt` is the corrected default, and `UserModel.CreatedAtTracksCreation` proves the intended property about it.

=== FILE: auth.dfy ===
/** The guard in front of every private route: it takes the bearer token from
    the `Authorization` header, verifies it, and resolves the user it names.
    A request is handed to the route's handler only when the guard admits it,
    with the resolved user as the caller. */
module Auth {
  import opened Seqs
  import opened Text
  import opened Errors
  import opened Externals
  import opened UserModel
  import opened Store
  import opened Http

  const MsgNotAuthorized: string := "Not authorized to access this page!"
  const MsgUserDoesNotExist: string := "User does not exist."

  /** The token of an `Authorization` header: a truthy header that starts with
      `Bearer` yields the second field of its split on spaces, which is
      missing when the header has no space. */
  function ExtractToken(header: Option<string>): (r: Option<string>)
    ensures r.Some? ==> Truthy(header) && StartsWith(header.value, "Bearer")
    ensures r.Some? ==> ' ' !in r.value
    ensures r.Some? ==> var fields := Split(header.value, ' ');
                        |fields| > 1 && r.value == fields[1] && header.value == Join(fields, ' ')
    ensures !Truthy(header) || !StartsWith(header.value, "Bearer") ==> r.None?
    ensures Truthy(header) && StartsWith(header.value, "Bearer") && |Split(header.value, ' ')| > 1 ==>
              r == Some(Split(header.value, ' ')[1])
  {
    if Truthy(header) && StartsWith(header.value, "Bearer") then
      var fields := Split(header.value, ' ');
      JoinSplit(header.value, ' ');
      if |fields| > 1 then Some(fields[1]) else None
    else None
  }

  /** `jwt.verify` with the process secret: the signature check and payload
      parse, then the expiry check against the current time in whole
      seconds, with no clock tolerance. */
  function VerifyJwt(env: Env, token: string, nowMs: nat): (r: Result<Claims, Thrown>)
    ensures r.Success? <==> env.jwtDecode(token).Some? && nowMs / 1000 < env.jwtDecode(token).value.exp
    ensures r.Success? ==> env.jwtDecode(token) == Some(r.value)
    ensures r.Failure? ==> (r.error == JwtInvalid <==> env.jwtDecode(token).None?)
    ensures r.Failure? ==> r.error == JwtInvalid || r.error == JwtExpired
  {
    match env.jwtDecode(token)
    case None => Failure(JwtInvalid)
    case Some(c) => if nowMs / 1000 >= c.exp then Failure(JwtExpired) else Success(c)
  }

  datatype Guard = Denied(error: Error) | Admitted(user: User)

  /** `protect`. A missing or empty token is refused with 401; a token that
      fails verification is refused with the verifier's error; a verified
      token naming no stored user is refused with 404; otherwise the caller
      is the stored user whose id the token carries. */
  function Protect(env: Env, db: Db, header: Option<string>, nowMs: nat): (g: Guard)
    ensures !Truthy(ExtractToken(header)) ==> g == Denied(AppError(401, MsgNotAuthorized))
    ensures Truthy(ExtractToken(header)) && VerifyJwt(env, ExtractToken(header).value, nowMs).Failure? ==>
              g == Denied(Raised(VerifyJwt(env, ExtractToken(header).value, nowMs).error))
    ensures g.Admitted? <==> && Truthy(ExtractToken(header))
                             && VerifyJwt(env, ExtractToken(header).value, nowMs).Success?
                             && exists i :: 0 <= i < |db.users| && db.users[i].id == VerifyJwt(env, ExtractToken(header).value, nowMs).value.id
    ensures Truthy(ExtractToken(header)) && VerifyJwt(env, ExtractToken(header).value, nowMs).Success? &&
            (forall i :: 0 <= i < |db.users| ==> db.users[i].id != VerifyJwt(env, ExtractToken(header).value, nowMs).value.id) ==>
              g == Denied(AppError(404, MsgUserDoesNotExist))
    ensures g.Admitted? ==> g.user in db.users && g.user.id == VerifyJwt(env, ExtractToken(header).value, nowMs).value.id
    ensures forall k :: Truthy(ExtractToken(header)) && VerifyJwt(env, ExtractToken(header).value, nowMs).Success? &&
                        FirstUserWithId(db, k, VerifyJwt(env, ExtractToken(header).value, nowMs).value.id) ==>
              g == Admitted(db.users[k])
    ensures g.Denied? && g.error.AppError? ==> g.error.status == 401 || g.error == AppError(404, MsgUserDoesNotExist)
    ensures g.Denied? && g.error.Raised? ==> g.error.thrown == JwtInvalid || g.error.thrown == JwtExpired
  {
    var token := ExtractToken(header);
    if !Truthy(token) then Denied(AppError(401, MsgNotAuthorized))
    else match VerifyJwt(env, token.value, nowMs)
      case Failure(e) => Denied(Raised(e))
      case Success(claims) =>
        FirstUserWithIdFound(db, claims.id);
        match FindUserById(db, claims.id)
        case None => Denied(AppError(404, MsgUserDoesNotExist))
        case Some(k) => Admitted(db.users[k])
  }

  /** A header `Bearer <token>` yields the token, for any non-empty token
      without spaces (a compact JWT has none). */
  lemma BearerRoundTrip(token: string)
    requires token != "" && ' ' !in token
    ensures ExtractToken(Some("Bearer " + token)) == Some(token)
  {
    var h := "Bearer " + token;
    var fields := ["Bearer", token];
    assert Join(fields, ' ') == "Bearer" + [' '] + token;
    assert "Bearer" + [' '] + token == h;
    SplitJoin(fields, ' ');
    assert "Bearer" <= h;
  }

  /** A header that is exactly `Bearer` carries no token: refused with 401
      before any verification or lookup. */
  lemma BareBearerRefused(env: Env, db: Db, nowMs: nat)
    ensures Protect(env, db, Some("Bearer"), nowMs) == Denied(AppError(401, MsgNotAuthorized))
  {
    var h := "Bearer";
    assert forall i :: 0 <= i < |h| ==> h[i] != ' ';
    assert First(h, (ch: char) => ch == ' ') == None;
    assert Split(h, ' ') == [h];
  }

  /** A session token issued to a stored user, presented before it expires,
      admits that very user. */
  lemma IssuedTokenAdmits(env: Env, db: Db, k: nat, issuedMs: nat, nowMs: nat)
    requires Sound(env) && Valid(env, db) && k < |db.users|
    requires var t := SignedJwt(env, db.users[k], issuedMs); t != "" && ' ' !in t
    requires nowMs / 1000 < issuedMs / 1000 + JwtLifetimeSeconds
    ensures Protect(env, db, Some("Bearer " + SignedJwt(env, db.users[k], issuedMs)), nowMs) == Admitted(db.users[k])
  {
    var u := db.users[k];
    var t := SignedJwt(env, u, issuedMs);
    BearerRoundTrip(t);
    SessionTokenClaims(env, u, issuedMs);
    DistinctFirst(db.users, k, UserId, (x: User) => x.id == u.id);
  }

  /** The same token presented an hour or more after issue is refused as
      expired, whether or not its user still exists. */
  lemma ExpiredTokenRefused(env: Env, db: Db, u: User, issuedMs: nat, nowMs: nat)
    requires Sound(env)
    requires var t := SignedJwt(env, u, issuedMs); t != "" && ' ' !in t
    requires nowMs / 1000 >= issuedMs / 1000 + JwtLifetimeSeconds
    ensures Protect(env, db, Some("Bearer " + SignedJwt(env, u, issuedMs)), nowMs) == Denied(Raised(JwtExpired))
  {
    BearerRoundTrip(SignedJwt(env, u, issuedMs));
    SessionTokenClaims(env, u, issuedMs);
  }
}

=== FILE: errors.dfy ===
/** Exceptions the libraries raise inside a handler. Every handler is wrapped
    so that a rejection is forwarded to the application's error handler, whose
    mapping to an HTTP status is not part of this model: these are carried
    to the response as they are. */
module Errors {

  /** Schema paths, of both the user and the quote schema. */
  datatype Path = FName | LName | Username | Email | Password | QuoteText | QuoteAuthor | CreatedBy

  datatype Thrown =
    | ValidationError(paths: set<Path>)  // schema validation, one entry per failing path
    | CastError                          // an id that is not an ObjectId
    | DuplicateKey                       // a unique index rejected the write
    | JwtInvalid                         // `jwt.verify`: bad signature or malformed token
    | JwtExpired                         // `jwt.verify`: `exp` has passed
    | IllegalArguments                   // bcrypt given a missing string
    | TypeError                          // reading `req.user` on a route without the guard
}

=== FILE: externals.dfy ===
/** The library calls the core makes and cannot be looked into: SHA-256,
    bcrypt, JSON Web Token signing and decoding, and the e-mail validator.
    They are uninterpreted: an `Env` supplies them as functions, and `Sound`
    states the only facts the proofs use about them. */
module Externals {
  import opened Seqs
  import opened Text

  /** A bcrypt salt: the cost factor and the random part `genSalt` draws. */
  datatype Salt = Salt(rounds: nat, nonce: seq<Byte>)

  /** The payload of a session token: the claims the server signs plus the
      issue and expiry times, in seconds since the epoch. */
  datatype Claims = Claims(
    id: ObjectId,
    fname: string,
    lname: string,
    username: string,
    email: string,
    iat: nat,
    exp: nat)

  datatype Env = Env(
    sha256Hex: string -> string,            // createHash('sha256').update(s).digest('hex')
    bcryptHash: (string, Salt) -> string,   // bcrypt.hash(password, salt)
    bcryptCompare: (string, string) -> bool,// bcrypt.compare(candidate, hash)
    jwtSign: Claims -> string,              // jwt.sign with the process secret
    jwtDecode: string -> Option<Claims>,    // signature check and payload parse of jwt.verify
    isEmail: string -> bool)                // validator.isEmail

  /** The assumptions on the libraries: the digest is injective (no
      collisions), a password matches its own hash under any salt, and a
      token decodes to the claims it was signed with. */
  ghost predicate Sound(env: Env) {
    && (forall a, b :: env.sha256Hex(a) == env.sha256Hex(b) ==> a == b)
    && (forall p, salt :: env.bcryptCompare(p, env.bcryptHash(p, salt)))
    && (forall claims :: env.jwtDecode(env.jwtSign(claims)) == Some(claims))
  }

  /** The number of random bytes in an activation token. */
  const ActivationTokenBytes: nat := 20

  type TokenBytes = s: seq<Byte> | |s| == ActivationTokenBytes witness seq(20, _ => 0)

  /** What the request handlers draw from the process: the clock, the
      identifier the driver assigns to a new document, the bytes of
      `crypto.randomBytes(20)`, the random part of a bcrypt salt, and the
      time the schema modules were loaded. */
  datatype Entropy = Entropy(
    nowMs: nat,
    loadedMs: nat,
    objectId: ObjectId,
    tokenBytes: TokenBytes,
    saltNonce: seq<Byte>)
}

=== FILE: http.dfy ===
/** Requests and responses as the handlers see them: body fields, the JSON
    payloads they send, and the outcome of a request together with the store
    it leaves behind. */
module Http {
  import opened Seqs
  import opened Text
  import opened Errors
  import opened UserModel
  import opened Store

  /** A user as sent to clients without the fields the schema hides
      (password, active flag, activation-token digest): the registration
      reply, and a quote's populated `createdBy`, whose `createdAt` is
      deselected. */
  datatype UserSummary = UserSummary(id: ObjectId, email: string, fname: string, lname: string, username: string)

  /** A user's profile: `toObject` of the document with its `quotes` virtual
      populated; the hidden fields are not selected. */
  datatype Profile = Profile(
    id: ObjectId,
    fname: string,
    lname: string,
    username: string,
    email: string,
    createdAt: nat,
    quotes: seq<Quote>)

  /** A quote with `createdBy` populated; `None` when the creator no longer
      exists, which populate reports as null. */
  datatype QuoteView = QuoteView(quote: Quote, createdBy: Option<UserSummary>)

  datatype Data =
    | NoData
    | Summary(summary: UserSummary)
    | UserProfile(profile: Profile)
    | Token(token: string)
    | QuoteDoc(quote: Quote)
    | PopulatedQuote(view: QuoteView)
    | QuoteList(results: nat, views: seq<QuoteView>)
    | Plain(text: string)

  /** A failed request: an `AppError` the handler raised with its status and
      message, or an exception a library raised. */
  datatype Error = AppError(status: nat, message: string) | Raised(thrown: Thrown)

  /** `Unmatched`: no route of the router matched, so the request falls
      through to whatever follows the router. */
  datatype Outcome = Ok(status: nat, message: Option<string>, data: Data) | Fail(error: Error) | Unmatched

  datatype Reply = Reply(outcome: Outcome, db: Db)

  /** A field of the parsed JSON body, `undefined` when absent. */
  function Field(body: map<string, string>, name: string): Option<string> {
    if name in body then Some(body[name]) else None
  }

  function Summarize(u: User): UserSummary {
    UserSummary(u.id, u.email, u.fname, u.lname, u.username)
  }

  function ProfileOf(db: Db, u: User): Profile {
    Profile(u.id, u.fname, u.lname, u.username, u.email, u.createdAt, QuotesBy(db, u.id))
  }

  /** `populate({ path: 'createdBy', select: '-createdAt' })`. */
  function Populate(db: Db, q: Quote): (v: QuoteView)
    ensures v.quote == q
    ensures v.createdBy.Some? <==> exists i :: 0 <= i < |db.users| && db.users[i].id == q.createdBy
    ensures v.createdBy.Some? ==> exists k :: FirstUserWithId(db, k, q.createdBy) && v.createdBy.value == Summarize(db.users[k])
  {
    match FindUserById(db, q.createdBy)
    case None => QuoteView(q, None)
    case Some(k) => QuoteView(q, Some(Summarize(db.users[k])))
  }
}

=== FILE: lifecycle.dfy ===
/** Properties of the account lifecycle that relate several requests: every
    user handler keeps the store valid, an activation token works once, a
    changed password is the one that checks afterwards, and the
    register-activate-login-profile sequence behaves as the API promises. */
module Lifecycle {
  import opened Seqs
  import opened Text
  import opened Errors
  import opened Externals
  import opened UserModel
  import opened Store
  import opened Http
  import opened Auth
  import opened UserControllers

  lemma RegisterPreservesValid(env: Env, db: Db, body: map<string, string>, rnd: Entropy)
    requires Valid(env, db)
    ensures Valid(env, Register(env, db, body, rnd).db)
  {
    var r := Register(env, db, body, rnd);
    if r.outcome.Ok? {
      var digest := env.sha256Hex(RawActivationToken(rnd));
      var u := NewUser(env, DraftOf(body), digest, rnd).value;
      NewUserWellFormed(env, DraftOf(body), digest, rnd);
      InsertUserPreservesValid(env, db, u);
    }
  }

  lemma ActivateAccountPreservesValid(env: Env, db: Db, token: string, rnd: Entropy)
    requires Valid(env, db)
    ensures Valid(env, ActivateAccount(env, db, token, rnd).db)
  {
    var r := ActivateAccount(env, db, token, rnd);
    if r.outcome.Ok? {
      var k := FindUserByActivationToken(db, env.sha256Hex(token)).value;
      var u' := db.users[k].(active := true, activationToken := None);
      SaveUserPreservesValid(env, db, k, u');
    }
  }

  lemma UpdateUserPreservesValid(env: Env, db: Db, caller: User, idParam: string, body: map<string, string>, rnd: Entropy)
    requires Valid(env, db)
    ensures Valid(env, UpdateUser(env, db, caller, idParam, body, rnd).db)
  {
    var r := UpdateUser(env, db, caller, idParam, body, rnd);
    if r.outcome.Ok? {
      var k := FindUserById(db, CastObjectId(idParam).value).value;
      var u' := r.db.users[k];
      assert r.db.users == db.users[k := u'];
      SaveUserPreservesValid(env, db, k, u');
    }
  }

  lemma DeleteUserPreservesValid(env: Env, db: Db, caller: User, idParam: string)
    requires Valid(env, db)
    ensures Valid(env, DeleteUser(db, caller, idParam).db)
  {
    var r := DeleteUser(db, caller, idParam);
    if r.outcome.Ok? {
      var k := FindUserById(db, CastObjectId(idParam).value).value;
      RemoveUserPreservesValid(env, db, k);
    }
  }

  /** An activation token is single-use: once it has activated the only
      account holding its digest, presenting it again is refused with 400
      and changes nothing. */
  lemma ActivationSingleUse(env: Env, db: Db, token: string, rnd1: Entropy, rnd2: Entropy)
    requires ActivateAccount(env, db, token, rnd1).outcome.Ok?
    requires forall i, j :: (&& 0 <= i < |db.users| && 0 <= j < |db.users|
                             && db.users[i].activationToken == Some(env.sha256Hex(token))
                             && db.users[j].activationToken == Some(env.sha256Hex(token))) ==> i == j
    ensures var db' := ActivateAccount(env, db, token, rnd1).db;
            ActivateAccount(env, db', token, rnd2) == Reply(Fail(AppError(400, MsgInvalidActivation)), db')
  {
    var d := env.sha256Hex(token);
    var k := FindUserByActivationToken(db, d).value;
    var db' := ActivateAccount(env, db, token, rnd1).db;
    assert db'.users == db.users[k := db.users[k].(active := true, activationToken := None)];
    forall i | 0 <= i < |db'.users|
      ensures db'.users[i].activationToken != Some(d)
    {
      if i != k {
        assert db'.users[i] == db.users[i];
      }
    }
  }

  /** With the injective digest, a token activates only the account it was
      issued to: the first holder of the digest of `token`, which is the
      account a successful activation turns active, holds the digest of
      `issued` only when `token` is `issued`. Other pending accounts, with
      digests of their own tokens, play no part. */
  lemma ActivationMatchesIssuedToken(env: Env, db: Db, token: string, rnd: Entropy, issued: string, k: int)
    requires Sound(env)
    requires FirstTokenHolder(db, k, env.sha256Hex(token))
    requires db.users[k].activationToken == Some(env.sha256Hex(issued))
    ensures token == issued
    ensures var r := ActivateAccount(env, db, token, rnd);
            r.outcome.Ok? ==> r.db.users[k].active && r.db.users[k].activationToken.None?
  {
  }

  /** In a valid store, any holder of the digest of a presented token gets
      an activation: the first holder becomes active and loses its digest. */
  lemma ActivationSucceedsForHolder(env: Env, db: Db, token: string, rnd: Entropy)
    requires Valid(env, db)
    requires exists i :: 0 <= i < |db.users| && db.users[i].activationToken == Some(env.sha256Hex(token))
    ensures var r := ActivateAccount(env, db, token, rnd);
            && r.outcome == Ok(200, Some(MsgActivated), NoData)
            && exists k :: && FirstTokenHolder(db, k, env.sha256Hex(token))
                           && r.db == db.(users := db.users[k := db.users[k].(active := true, activationToken := None)])
  {
    var k := FindUserByActivationToken(db, env.sha256Hex(token)).value;
    WellFormedRevalidates(env, db.users[k]);
  }

  /** In a valid store, the guarded caller changing its own password with
      the right old password and a new password the schema accepts
      succeeds, and the stored password becomes the one for the new
      password. */
  lemma PasswordChangeSucceeds(env: Env, db: Db, caller: User, idParam: string, body: map<string, string>, rnd: Entropy)
    requires Valid(env, db)
    requires caller in db.users && CastObjectId(idParam) == Some(caller.id)
    requires Field(body, "oldPassword").Some? && env.bcryptCompare(Field(body, "oldPassword").value, caller.password)
    requires PasswordErrors(Field(body, "newPassword")) == {}
    ensures var r := UpdateUser(env, db, caller, idParam, body, rnd);
            && r.outcome == Ok(200, Some(MsgPasswordUpdated), NoData)
            && exists k :: && 0 <= k < |db.users| && db.users[k] == caller
                           && r.db == db.(users := db.users[k := caller.(password :=
                                StoredAfterChange(env, caller.password, Field(body, "newPassword").value, rnd))])
  {
    var j :| 0 <= j < |db.users| && db.users[j] == caller;
    var k := FindUserById(db, caller.id).value;
    UniqueUserId(env, db, j, k);
    WellFormedRevalidates(env, caller);
  }

  /** After a password change, `checkPassword` accepts the new password.
      The one exception is a "new password" equal to the stored hash string:
      the path is then not modified, the save writes nothing and the store
      is unchanged. */
  lemma PasswordChangeTakesEffect(env: Env, db: Db, caller: User, idParam: string, body: map<string, string>, rnd: Entropy)
    requires Sound(env)
    requires UpdateUser(env, db, caller, idParam, body, rnd).outcome.Ok?
    ensures var db' := UpdateUser(env, db, caller, idParam, body, rnd).db;
            var p := Field(body, "newPassword").value;
            exists k :: && 0 <= k < |db.users| && db.users[k].id == caller.id && db'.users[k].id == caller.id
                        && (if p == db.users[k].password then db' == db
                            else CheckPassword(env, Some(p), db'.users[k].password) == Some(true))
  {
    var db' := UpdateUser(env, db, caller, idParam, body, rnd).db;
    var p := Field(body, "newPassword").value;
    assert IdTaken(db, caller.id);
    var k := FindUserById(db, caller.id).value;
    var u := db.users[k];
    assert FirstUserWithId(db, k, caller.id);
    assert db' == db.(users := db.users[k := u.(password := StoredAfterChange(env, u.password, p, rnd))]);
    assert db'.users[k].id == caller.id;
    if p == u.password {
      assert db'.users == db.users;
    } else {
      assert db'.users[k].password == env.bcryptHash(p, Salt(SaltRounds, rnd.saltNonce));
    }
  }

  /** Login failures for an unknown e-mail and for a wrong password share the
      status 401 but not the message: the first ends with an exclamation
      mark, so the two cases can be told apart. */
  lemma CredentialFailuresDiffer(env: Env, db: Db, unknown: map<string, string>, wrong: map<string, string>, nowMs: nat)
    requires Truthy(Field(unknown, "email")) && Truthy(Field(unknown, "password"))
    requires !EmailTaken(db, Field(unknown, "email"))
    requires Truthy(Field(wrong, "email")) && Truthy(Field(wrong, "password"))
    requires var k := FindUserByEmail(db, Field(wrong, "email"));
             k.Some? && !env.bcryptCompare(Field(wrong, "password").value, db.users[k.value].password)
    ensures Login(env, db, unknown, nowMs).error.status == Login(env, db, wrong, nowMs).error.status == 401
    ensures Login(env, db, unknown, nowMs).error.message == Login(env, db, wrong, nowMs).error.message + "!"
  {
  }

  /** An inactive account with a wrong password is refused as bad
      credentials (401), not as inactive (400): the password is checked
      first. */
  lemma InactiveWrongPasswordIs401(env: Env, db: Db, body: map<string, string>, nowMs: nat)
    requires Valid(env, db)
    requires Truthy(Field(body, "email")) && Truthy(Field(body, "password"))
    requires var k := FindUserByEmail(db, Field(body, "email"));
             k.Some? && !db.users[k.value].active
             && !env.bcryptCompare(Field(body, "password").value, db.users[k.value].password)
    ensures Login(env, db, body, nowMs) == Fail(AppError(401, MsgWrongPassword))
  {
  }

  /** A successful registration appends the new account, and it is the
      account an e-mail lookup with the registered address finds. */
  lemma RegisteredAccountFoundByEmail(env: Env, db: Db, body: map<string, string>, rnd: Entropy)
    requires Register(env, db, body, rnd).outcome.Ok?
    ensures var db1 := Register(env, db, body, rnd).db;
            FindUserByEmail(db1, Field(body, "email")) == Some(|db.users|)
  {
    var db1 := Register(env, db, body, rnd).db;
    var n := |db.users|;
    var r := FindUserByEmail(db1, Field(body, "email"));
    assert db1.users[n].email == ToLower(Field(body, "email").value);
    assert forall i :: 0 <= i < n ==> db1.users[i] == db.users[i];
    assert r.Some?;
    assert !(r.value < n);
    assert !(r.value > n);
  }

  /** A successful registration publishes the new account's profile: looking
      up the registered username returns it. */
  lemma RegisteredUserFoundByUsername(env: Env, db: Db, body: map<string, string>, rnd: Entropy)
    requires Register(env, db, body, rnd).outcome.Ok?
    ensures var db1 := Register(env, db, body, rnd).db;
            var u := db1.users[|db.users|];
            && u.username == Field(body, "username").value
            && GetUserByUsername(db1, Field(body, "username").value) == Ok(200, None, UserProfile(ProfileOf(db1, u)))
  {
    var db1 := Register(env, db, body, rnd).db;
    var n := |db.users|;
    var name := Field(body, "username");
    assert db1.users[n].username == name.value;
    assert forall i :: 0 <= i < n ==> db1.users[i] == db.users[i];
    FirstAt(db1.users, (u: User) => u.username == name.value, n);
    assert FindUserByUsername(db1, name) == Some(n);
  }

  /** Before activation, logging in with the registered credentials is
      refused because the account is not active. */
  lemma LoginBeforeActivation(env: Env, db: Db, body: map<string, string>, rnd: Entropy, login: map<string, string>, nowMs: nat)
    requires Sound(env)
    requires Register(env, db, body, rnd).outcome.Ok?
    requires Field(login, "email") == Field(body, "email") && Field(login, "password") == Field(body, "password")
    ensures Login(env, Register(env, db, body, rnd).db, login, nowMs) == Fail(AppError(400, MsgNotActive))
  {
    RegisteredAccountFoundByEmail(env, db, body, rnd);
  }

  /** The e-mailed token activates the new account, provided no older
      account holds the same digest. */
  lemma ActivationOfRegistered(env: Env, db: Db, body: map<string, string>, rnd: Entropy, rnd2: Entropy)
    requires Valid(env, db)
    requires Register(env, db, body, rnd).outcome.Ok?
    requires forall i :: 0 <= i < |db.users| ==>
               db.users[i].activationToken != Some(env.sha256Hex(RawActivationToken(rnd)))
    ensures var db1 := Register(env, db, body, rnd).db;
            var r2 := ActivateAccount(env, db1, RawActivationToken(rnd), rnd2);
            && r2.outcome == Ok(200, Some(MsgActivated), NoData)
            && r2.db == db1.(users := db1.users[|db.users| := db1.users[|db.users|].(active := true, activationToken := None)])
  {
    var db1 := Register(env, db, body, rnd).db;
    var n := |db.users|;
    var raw := RawActivationToken(rnd);
    RegisterPreservesValid(env, db, body, rnd);
    assert forall i :: 0 <= i < n ==> db1.users[i] == db.users[i];
    assert FindUserByActivationToken(db1, env.sha256Hex(raw)) == Some(n);
    WellFormedRevalidates(env, db1.users[n]);
  }

  /** Once activated, logging in with the registered credentials issues a
      session token for the account. */
  lemma LoginAfterActivation(env: Env, db: Db, body: map<string, string>, rnd: Entropy, rnd2: Entropy,
                             login: map<string, string>, nowMs: nat)
    requires Sound(env) && Valid(env, db)
    requires Register(env, db, body, rnd).outcome.Ok?
    requires forall i :: 0 <= i < |db.users| ==>
               db.users[i].activationToken != Some(env.sha256Hex(RawActivationToken(rnd)))
    requires Field(login, "email") == Field(body, "email") && Field(login, "password") == Field(body, "password")
    ensures var db1 := Register(env, db, body, rnd).db;
            var db2 := ActivateAccount(env, db1, RawActivationToken(rnd), rnd2).db;
            Login(env, db2, login, nowMs) == Ok(200, Some(MsgLoggedIn), Token(SignedJwt(env, db2.users[|db.users|], nowMs)))
  {
    var db1 := Register(env, db, body, rnd).db;
    var n := |db.users|;
    ActivationOfRegistered(env, db, body, rnd, rnd2);
    RegisteredAccountFoundByEmail(env, db, body, rnd);
    var db2 := ActivateAccount(env, db1, RawActivationToken(rnd), rnd2).db;
    var email := Field(body, "email");
    assert Truthy(email) && Truthy(Field(body, "password")) by {
      assert WellFormedDraft(env, DraftOf(body));
    }
    assert env.bcryptCompare(Field(login, "password").value, db1.users[n].password) by {
      assert PendingAccount(env, body, rnd, db1.users[n]);
    }
    ActivatedLoginIssuesToken(env, db1, n, login, nowMs);
  }

  /** Activating the account an e-mail lookup finds, whose password is the
      one presented, makes the login issue its token. */
  lemma ActivatedLoginIssuesToken(env: Env, db1: Db, n: nat, login: map<string, string>, nowMs: nat)
    requires Truthy(Field(login, "email")) && Truthy(Field(login, "password"))
    requires FindUserByEmail(db1, Field(login, "email")) == Some(n)
    requires env.bcryptCompare(Field(login, "password").value, db1.users[n].password)
    ensures var db2 := db1.(users := db1.users[n := db1.users[n].(active := true, activationToken := None)]);
            Login(env, db2, login, nowMs) == TokenResponse(env, db2.users[n], nowMs)
  {
    var db2 := db1.(users := db1.users[n := db1.users[n].(active := true, activationToken := None)]);
    var email := Field(login, "email");
    assert FindUserByEmail(db2, email) == Some(n) by {
      assert forall i :: 0 <= i < n ==> db2.users[i] == db1.users[i];
      FirstAt(db2.users, (u: User) => u.email == ToLower(email.value), n);
    }
    LoginIssuesToken(env, db2, login, nowMs, n);
  }

  /** An active account presented with its e-mail and the right password
      gets the session token for that account. */
  lemma LoginIssuesToken(env: Env, db: Db, login: map<string, string>, nowMs: nat, k: nat)
    requires Truthy(Field(login, "email")) && Truthy(Field(login, "password"))
    requires FindUserByEmail(db, Field(login, "email")) == Some(k)
    requires db.users[k].active && env.bcryptCompare(Field(login, "password").value, db.users[k].password)
    ensures Login(env, db, login, nowMs) == TokenResponse(env, db.users[k], nowMs)
  {
  }

  /** The life of one account. A registration that succeeds creates an
      account whose login is refused as inactive; the e-mailed token
      activates it; login then issues a token; within the hour that token
      admits the new user through the guard, and `me` returns that user's
      profile. */
  lemma RegisterActivateLoginMe(env: Env, db: Db, body: map<string, string>, rnd: Entropy,
                                rnd2: Entropy, login: map<string, string>, loginMs: nat, nowMs: nat)
    requires Sound(env) && Valid(env, db)
    requires Register(env, db, body, rnd).outcome.Ok?
    requires forall i :: 0 <= i < |db.users| ==>
               db.users[i].activationToken != Some(env.sha256Hex(RawActivationToken(rnd)))
    requires Field(login, "email") == Field(body, "email") && Field(login, "password") == Field(body, "password")
    requires nowMs / 1000 < loginMs / 1000 + JwtLifetimeSeconds
    ensures var db1 := Register(env, db, body, rnd).db;
            var db2 := ActivateAccount(env, db1, RawActivationToken(rnd), rnd2).db;
            var u := db2.users[|db.users|];
            var t := SignedJwt(env, u, loginMs);
            && Login(env, db1, login, loginMs) == Fail(AppError(400, MsgNotActive))
            && u.id == rnd.objectId && u.active
            && Login(env, db2, login, loginMs) == Ok(200, Some(MsgLoggedIn), Token(t))
            && (t != "" && ' ' !in t ==>
                  && Protect(env, db2, Some("Bearer " + t), nowMs) == Admitted(u)
                  && Me(db2, u).data.profile.id == rnd.objectId)
  {
    var db1 := Register(env, db, body, rnd).db;
    LoginBeforeActivation(env, db, body, rnd, login, loginMs);
    ActivationOfRegistered(env, db, body, rnd, rnd2);
    LoginAfterActivation(env, db, body, rnd, rnd2, login, loginMs);
    RegisterPreservesValid(env, db, body, rnd);
    ActivateAccountPreservesValid(env, db1, RawActivationToken(rnd), rnd2);
    var db2 := ActivateAccount(env, db1, RawActivationToken(rnd), rnd2).db;
    var t := SignedJwt(env, db2.users[|db.users|], loginMs);
    if t != "" && ' ' !in t {
      IssuedTokenAdmits(env, db2, |db.users|, loginMs, nowMs);
    }
  }
}

=== FILE: quote_controllers.dfy ===
/** Quote handlers: creation by the authenticated caller, the public reads,
    and the edits and deletions only a quote's creator may make. */
module QuoteControllers {
  import opened Seqs
  import opened Text
  import opened Errors
  import opened Externals
  import opened UserModel
  import opened Store
  import opened Http
  import QuoteModel

  const MsgQuoteCreated: string := "Quote created!"
  const MsgQuoteNotFound: string := "Quote not found!"
  const MsgQuoteMissing: string := "Quote with this id cannot be found!"
  const MsgEditForbidden: string := "You cannot edit this quote!"
  const MsgQuoteUpdated: string := "Quote updated!"
  const MsgQuoteDeleteForbidden: string := "You cannot delete this quote!"
  const MsgQuoteDeleted: string := "Quote deleted!"

  predicate QuoteIdTaken(db: Db, id: ObjectId) {
    exists i :: 0 <= i < |db.quotes| && db.quotes[i].id == id
  }

  /** `quotes[k]` is the document `Quote.findById` returns for the route
      parameter: the first quote whose id the parameter casts to. */
  predicate Addressed(db: Db, k: int, idParam: string) {
    && 0 <= k < |db.quotes|
    && Some(db.quotes[k].id) == CastObjectId(idParam)
    && forall j :: 0 <= j < k ==> Some(db.quotes[j].id) != CastObjectId(idParam)
  }

  /** The addressed quote is the one the lookup by the cast id finds. */
  lemma AddressedFound(db: Db, idParam: string)
    ensures forall k :: Addressed(db, k, idParam) ==> FindQuoteById(db, CastObjectId(idParam).value) == Some(k)
  {
    forall k | Addressed(db, k, idParam)
      ensures FindQuoteById(db, CastObjectId(idParam).value) == Some(k)
    {
      var id := CastObjectId(idParam).value;
      FirstAt(db.quotes, (q: Quote) => q.id == id, k);
    }
  }

  /** Populated views of a sequence of quotes, newest last as stored, then
      reversed for the reply. */
  function NewestFirst(db: Db, qs: seq<Quote>): (views: seq<QuoteView>)
    ensures |views| == |qs|
    ensures forall i :: 0 <= i < |qs| ==> views[i] == Populate(db, qs[|qs| - 1 - i])
  {
    Reverse(seq(|qs|, i requires 0 <= i < |qs| => Populate(db, qs[i])))
  }

  /** The listing by creator holds exactly that creator's stored quotes. */
  lemma CreatorListing(db: Db, id: ObjectId)
    ensures var views := NewestFirst(db, QuotesBy(db, id));
            && (forall i :: 0 <= i < |views| ==> views[i].quote in db.quotes && views[i].quote.createdBy == id)
            && (forall i :: 0 <= i < |db.quotes| && db.quotes[i].createdBy == id ==>
                  exists j :: 0 <= j < |views| && views[j].quote == db.quotes[i])
  {
    var qs := QuotesBy(db, id);
    var views := NewestFirst(db, qs);
    forall i | 0 <= i < |views|
      ensures views[i].quote in db.quotes && views[i].quote.createdBy == id
    {
      assert views[i].quote == qs[|qs| - 1 - i];
    }
    forall i | 0 <= i < |db.quotes| && db.quotes[i].createdBy == id
      ensures exists j :: 0 <= j < |views| && views[j].quote == db.quotes[i]
    {
      var k :| 0 <= k < |qs| && qs[k] == db.quotes[i];
      assert views[|qs| - 1 - k].quote == qs[k];
    }
  }

  /** `addQuote`: a quote by the caller, 201 with the new quote. A text
      shorter than ten characters or a missing author fails validation. */
  function AddQuote(db: Db, caller: User, body: map<string, string>, rnd: Entropy): (r: Reply)
    ensures r.outcome.Ok? || r.outcome.Fail?
    ensures r.outcome.Fail? ==> r.db == db
    ensures r.outcome.Ok? <==> && Field(body, "text").Some? && |Field(body, "text").value| >= QuoteModel.TextMinLength
                               && Field(body, "author").Some? && Field(body, "author").value != ""
                               && !QuoteIdTaken(db, rnd.objectId)
    ensures r.outcome.Ok? ==>
              && |r.db.quotes| == |db.quotes| + 1
              && r.db == db.(quotes := db.quotes + [r.db.quotes[|db.quotes|]])
              && var q := r.db.quotes[|db.quotes|];
                 && q.id == rnd.objectId && q.createdBy == caller.id
                 && q.text == Field(body, "text").value && q.author == Field(body, "author").value
                 && q.createdAt == rnd.loadedMs
                 && r.outcome == Ok(201, Some(MsgQuoteCreated), QuoteDoc(q))
  {
    match QuoteModel.NewQuote(Field(body, "text"), Field(body, "author"), Some(caller.id), rnd)
    case Failure(e) => Reply(Fail(Raised(e)), db)
    case Success(q) =>
      match InsertQuote(db, q)
      case Failure(e) => Reply(Fail(Raised(e)), db)
      case Success(db') => Reply(Ok(201, Some(MsgQuoteCreated), QuoteDoc(q)), db')
  }

  /** `getQuotes`: every quote, newest first, with the count. */
  function GetQuotes(db: Db): (r: Outcome)
    ensures r.Ok? && r.status == 200 && r.data.QuoteList?
    ensures r.data.results == |db.quotes| == |r.data.views|
    ensures forall i :: 0 <= i < |db.quotes| ==>
              r.data.views[i].quote == db.quotes[|db.quotes| - 1 - i]
    ensures forall i :: 0 <= i < |db.quotes| ==> r.data.views[i] == Populate(db, db.quotes[|db.quotes| - 1 - i])
  {
    Ok(200, None, QuoteList(|db.quotes|, NewestFirst(db, db.quotes)))
  }

  /** `getQuotesByUserId`: the quotes whose creator is the given user,
      newest first, with their count. */
  function GetQuotesByUserId(db: Db, userIdParam: string): (r: Outcome)
    ensures CastObjectId(userIdParam).None? <==> r == Fail(Raised(CastError))
    ensures CastObjectId(userIdParam).Some? ==> r.Ok?
    ensures r.Ok? || r.Fail?
    ensures r.Ok? ==> && r.status == 200 && r.data.QuoteList?
                      && var qs := QuotesBy(db, CastObjectId(userIdParam).value);
                         && r.data.results == |r.data.views| == |qs|
                         && forall i :: 0 <= i < |qs| ==> r.data.views[i] == Populate(db, qs[|qs| - 1 - i])
    ensures r.Ok? ==> var id := CastObjectId(userIdParam).value;
                      && (forall i :: 0 <= i < |r.data.views| ==>
                            r.data.views[i].quote in db.quotes && r.data.views[i].quote.createdBy == id)
                      && (forall i :: 0 <= i < |db.quotes| && db.quotes[i].createdBy == id ==>
                            exists j :: 0 <= j < |r.data.views| && r.data.views[j].quote == db.quotes[i])
  {
    match CastObjectId(userIdParam)
    case None => Fail(Raised(CastError))
    case Some(id) =>
      var qs := QuotesBy(db, id);
      var views := NewestFirst(db, qs);
      CreatorListing(db, id);
      Ok(200, None, QuoteList(|qs|, views))
  }

  /** `getQuoteById`: the quote with its creator, 404 when absent. */
  function GetQuoteById(db: Db, idParam: string): (r: Outcome)
    ensures CastObjectId(idParam).None? ==> r == Fail(Raised(CastError))
    ensures CastObjectId(idParam).Some? && !QuoteIdTaken(db, CastObjectId(idParam).value) ==>
              r == Fail(AppError(404, MsgQuoteNotFound))
    ensures forall k :: Addressed(db, k, idParam) ==> r == Ok(200, None, PopulatedQuote(Populate(db, db.quotes[k])))
    ensures r.Ok? ==> && r.status == 200 && r.data.PopulatedQuote?
                      && r.data.view.quote in db.quotes
                      && Some(r.data.view.quote.id) == CastObjectId(idParam)
  {
    AddressedFound(db, idParam);
    match CastObjectId(idParam)
    case None => Fail(Raised(CastError))
    case Some(id) =>
      match FindQuoteById(db, id)
      case None => Fail(AppError(404, MsgQuoteNotFound))
      case Some(k) => Ok(200, None, PopulatedQuote(Populate(db, db.quotes[k])))
  }

  /** `editQuote`: only the creator may edit (403 otherwise, 404 for no such
      quote); text and author are replaced by the body's, which must pass
      the schema. Nothing else changes: not the creator, not other quotes,
      not the users. */
  function EditQuote(db: Db, caller: User, idParam: string, body: map<string, string>): (r: Reply)
    ensures CastObjectId(idParam).None? ==> r == Reply(Fail(Raised(CastError)), db)
    ensures CastObjectId(idParam).Some? && !QuoteIdTaken(db, CastObjectId(idParam).value) ==>
              r == Reply(Fail(AppError(404, MsgQuoteMissing)), db)
    ensures r.outcome.Ok? || r.outcome.Fail?
    ensures r.outcome.Fail? ==> r.db == db
    ensures forall k :: Addressed(db, k, idParam) && db.quotes[k].createdBy != caller.id ==>
              r == Reply(Fail(AppError(403, MsgEditForbidden)), db)
    ensures forall k :: Addressed(db, k, idParam) && db.quotes[k].createdBy == caller.id ==>
              var text, author := Field(body, "text"), Field(body, "author");
              var errs := QuoteModel.QuoteErrors(text, author, Some(caller.id));
              && (errs != {} ==> r == Reply(Fail(Raised(ValidationError(errs))), db))
              && (errs == {} ==> var q' := db.quotes[k].(text := text.value, author := author.value);
                                 r == Reply(Ok(200, Some(MsgQuoteUpdated), QuoteDoc(q')), db.(quotes := db.quotes[k := q'])))
    ensures r.outcome.Ok? ==>
              && Field(body, "text").Some? && Field(body, "author").Some?
              && exists k :: && Addressed(db, k, idParam)
                             && db.quotes[k].createdBy == caller.id
                             && var q' := db.quotes[k].(text := Field(body, "text").value, author := Field(body, "author").value);
                                && r.db == db.(quotes := db.quotes[k := q'])
                                && r.outcome == Ok(200, Some(MsgQuoteUpdated), QuoteDoc(q'))
  {
    AddressedFound(db, idParam);
    match CastObjectId(idParam)
    case None => Reply(Fail(Raised(CastError)), db)
    case Some(id) =>
      match FindQuoteById(db, id)
      case None => Reply(Fail(AppError(404, MsgQuoteMissing)), db)
      case Some(k) =>
        var q := db.quotes[k];
        if caller.id != q.createdBy then Reply(Fail(AppError(403, MsgEditForbidden)), db)
        else
          var text, author := Field(body, "text"), Field(body, "author");
          var errs := QuoteModel.QuoteErrors(text, author, Some(q.createdBy));
          if errs != {} then Reply(Fail(Raised(ValidationError(errs))), db)
          else
            var q' := q.(text := text.value, author := author.value);
            Reply(Ok(200, Some(MsgQuoteUpdated), QuoteDoc(q')), db.(quotes := db.quotes[k := q']))
  }

  /** `deleteQuote`: only the creator may delete (403 otherwise, 404 for no
      such quote); exactly that quote is removed and returned. */
  function DeleteQuote(db: Db, caller: User, idParam: string): (r: Reply)
    ensures CastObjectId(idParam).None? ==> r == Reply(Fail(Raised(CastError)), db)
    ensures CastObjectId(idParam).Some? && !QuoteIdTaken(db, CastObjectId(idParam).value) ==>
              r == Reply(Fail(AppError(404, MsgQuoteMissing)), db)
    ensures r.outcome.Ok? || r.outcome.Fail?
    ensures r.outcome.Fail? ==> r.db == db
    ensures forall k :: Addressed(db, k, idParam) && db.quotes[k].createdBy != caller.id ==>
              r == Reply(Fail(AppError(403, MsgQuoteDeleteForbidden)), db)
    ensures forall k :: Addressed(db, k, idParam) && db.quotes[k].createdBy == caller.id ==>
              r == Reply(Ok(200, Some(MsgQuoteDeleted), QuoteDoc(db.quotes[k])),
                         db.(quotes := db.quotes[..k] + db.quotes[k + 1..]))
    ensures r.outcome.Ok? ==>
              && r.db.users == db.users
              && exists k :: && Addressed(db, k, idParam)
                             && db.quotes[k].createdBy == caller.id
                             && r.db.quotes == db.quotes[..k] + db.quotes[k + 1..]
                             && r.outcome == Ok(200, Some(MsgQuoteDeleted), QuoteDoc(db.quotes[k]))
  {
    AddressedFound(db, idParam);
    match CastObjectId(idParam)
    case None => Reply(Fail(Raised(CastError)), db)
    case Some(id) =>
      match FindQuoteById(db, id)
      case None => Reply(Fail(AppError(404, MsgQuoteMissing)), db)
      case Some(k) =>
        var q := db.quotes[k];
        if caller.id != q.createdBy then Reply(Fail(AppError(403, MsgQuoteDeleteForbidden)), db)
        else Reply(Ok(200, Some(MsgQuoteDeleted), QuoteDoc(q)), db.(quotes := db.quotes[..k] + db.quotes[k + 1..]))
  }

  lemma AddQuotePreservesValid(env: Env, db: Db, caller: User, body: map<string, string>, rnd: Entropy)
    requires Valid(env, db)
    ensures Valid(env, AddQuote(db, caller, body, rnd).db)
  {
    var r := AddQuote(db, caller, body, rnd);
    if r.outcome.Ok? {
      var q := QuoteModel.NewQuote(Field(body, "text"), Field(body, "author"), Some(caller.id), rnd).value;
      InsertQuotePreservesValid(env, db, q);
    }
  }

  lemma EditQuotePreservesValid(env: Env, db: Db, caller: User, idParam: string, body: map<string, string>)
    requires Valid(env, db)
    ensures Valid(env, EditQuote(db, caller, idParam, body).db)
  {
    var r := EditQuote(db, caller, idParam, body);
    if r.outcome.Ok? {
      var k := FindQuoteById(db, CastObjectId(idParam).value).value;
      var q' := db.quotes[k].(text := Field(body, "text").value, author := Field(body, "author").value);
      SaveQuotePreservesValid(env, db, k, q');
    }
  }

  lemma DeleteQuotePreservesValid(env: Env, db: Db, caller: User, idParam: string)
    requires Valid(env, db)
    ensures Valid(env, DeleteQuote(db, caller, idParam).db)
  {
    var r := DeleteQuote(db, caller, idParam);
    if r.outcome.Ok? {
      var k := FindQuoteById(db, CastObjectId(idParam).value).value;
      RemoveQuotePreservesValid(env, db, k);
    }
  }

  /** A new quote shows up first in the listing and in its creator's
      listing. */
  lemma AddedQuoteListedFirst(db: Db, caller: User, body: map<string, string>, rnd: Entropy)
    requires AddQuote(db, caller, body, rnd).outcome.Ok?
    ensures var db' := AddQuote(db, caller, body, rnd).db;
            var q := db'.quotes[|db.quotes|];
            && GetQuotes(db').data.views[0].quote == q
            && QuotesBy(db', caller.id) == QuotesBy(db, caller.id) + [q]
            && GetQuotesByUserId(db', caller.id).data.views[0] == Populate(db', q)
  {
    var db' := AddQuote(db, caller, body, rnd).db;
    var q := db'.quotes[|db.quotes|];
    FilterAppend(db.quotes, [q], (x: Quote) => x.createdBy == caller.id);
    CastCanonical(caller.id);
  }

  /** A new quote can be fetched by its id, populated with its creator. */
  lemma AddedQuoteFoundById(db: Db, caller: User, body: map<string, string>, rnd: Entropy)
    requires AddQuote(db, caller, body, rnd).outcome.Ok?
    ensures var db' := AddQuote(db, caller, body, rnd).db;
            var q := db'.quotes[|db.quotes|];
            GetQuoteById(db', q.id) == Ok(200, None, PopulatedQuote(Populate(db', q)))
  {
    var db' := AddQuote(db, caller, body, rnd).db;
    var n := |db.quotes|;
    var q := db'.quotes[n];
    CastCanonical(q.id);
    assert forall j :: 0 <= j < n ==> db'.quotes[j] == db.quotes[j];
    assert Addressed(db', n, q.id);
  }
}

=== FILE: quote_model.dfy ===
/** The quote schema: required text of at least ten characters, a required
    author, a required reference to the creating user, and a defaulted
    creation time. */
module QuoteModel {
  import opened Seqs
  import opened Text
  import opened Errors
  import opened Externals
  import UserModel

  const TextMinLength: nat := 10

  datatype Quote = Quote(
    id: ObjectId,
    text: string,
    author: string,
    createdBy: ObjectId,
    createdAt: nat)

  /** The failing paths of a quote's text, author and owner reference. */
  function QuoteErrors(text: Option<string>, author: Option<string>, createdBy: Option<ObjectId>): set<Path> {
    (if UserModel.Required(text) && UserModel.MinLength(text, TextMinLength) then {} else {QuoteText})
    + (if UserModel.Required(author) then {} else {QuoteAuthor})
    + (if createdBy.Some? then {} else {CreatedBy})
  }

  /** What every stored quote satisfies. */
  ghost predicate WellFormed(q: Quote) {
    |q.text| >= TextMinLength && q.author != ""
  }

  /** `Quote.create`: the new quote once validation passed. The creation time
      comes from the default as written: the time the schema was loaded. */
  function NewQuote(text: Option<string>, author: Option<string>, createdBy: Option<ObjectId>,
                    rnd: Entropy): (r: Result<Quote, Thrown>)
    ensures r.Success? <==> && text.Some? && |text.value| >= TextMinLength
                            && author.Some? && author.value != ""
                            && createdBy.Some?
    ensures r.Failure? ==> r.error.ValidationError? && r.error.paths != {}
    ensures r.Success? ==> && r.value.id == rnd.objectId
                           && r.value.text == text.value
                           && r.value.author == author.value
                           && r.value.createdBy == createdBy.value
                           && r.value.createdAt == rnd.loadedMs
                           && WellFormed(r.value)
  {
    var errs := QuoteErrors(text, author, createdBy);
    if errs != {} then Failure(ValidationError(errs))
    else Success(Quote(rnd.objectId, text.value, author.value, createdBy.value,
                       UserModel.DefaultCreatedAtAsWritten(rnd.loadedMs, rnd.nowMs)))
  }
}

=== FILE: routes.dfy ===
/** The HTTP surface: the two routers mounted under `/api/v1/users` and
    `/api/v1/quotes`, how a request path selects a route, and how a route
    runs the auth guard before the handlers that need a caller. */
module Routes {
  import opened Seqs
  import opened Text
  import opened Errors
  import opened Externals
  import opened UserModel
  import opened Store
  import opened Http
  import opened Auth
  import UserControllers
  import QuoteControllers
  import Lifecycle

  datatype Method = Get | Post | Patch | Delete | Put | Head | Options

  /** A path segment of a route pattern: a literal, matched without regard
      to case, or a `:name` parameter, matching any non-empty segment. */
  datatype Segment = Lit(text: string) | Param(name: string)

  datatype Handler =
    | UsersRoot | Register | Login | ActivateAccount | Me | GetUserByUsername | UpdateUser | DeleteUser
    | AddQuote | GetQuotes | GetQuoteById | GetQuotesByUserId | EditQuote | DeleteQuote

  datatype Route = Route(verb: Method, pattern: seq<Segment>, guarded: bool, handler: Handler)

  datatype Mount = Mount(prefix: seq<string>, routes: seq<Route>)

  const UsersRootText: string := "User routes working"

  /** The user router, in registration order. */
  const UserRoutes: seq<Route> := [
    Route(Get, [], false, UsersRoot),
    Route(Post, [Lit("register")], false, Register),
    Route(Post, [Lit("login")], false, Login),
    Route(Get, [Lit("activateAccount"), Param("token")], false, ActivateAccount),
    Route(Get, [Lit("me")], true, Me),
    Route(Get, [Param("username")], false, GetUserByUsername),
    Route(Patch, [Param("id")], true, UpdateUser),
    Route(Delete, [Param("id")], true, DeleteUser)
  ]

  /** The quote router, in registration order. */
  const QuoteRoutes: seq<Route> := [
    Route(Post, [], true, AddQuote),
    Route(Get, [], false, GetQuotes),
    Route(Get, [Param("id")], false, GetQuoteById),
    Route(Get, [Lit("user"), Param("userId")], false, GetQuotesByUserId),
    Route(Patch, [Param("id")], true, EditQuote),
    Route(Delete, [Param("id")], true, DeleteQuote)
  ]

  const Mounts: seq<Mount> := [
    Mount(["api", "v1", "users"], UserRoutes),
    Mount(["api", "v1", "quotes"], QuoteRoutes)
  ]

  /** The handlers that read the authenticated caller. */
  predicate NeedsCaller(h: Handler) {
    h in {Me, UpdateUser, DeleteUser, AddQuote, EditQuote, DeleteQuote}
  }

  /** The path `/s1/s2/…/sn` of a sequence of segments. */
  function PathOf(segs: seq<string>): string {
    Join([""] + segs, '/')
  }

  /** The segments of a request path: it must start with `/`, and one
      trailing `/` is ignored. */
  function SegmentsOf(path: string): (r: Option<seq<string>>)
    ensures r.Some? ==> forall i :: 0 <= i < |r.value| ==> '/' !in r.value[i]
    ensures r.Some? ==> PathOf(r.value) == path || PathOf(r.value) + "/" == path
  {
    var fields := Split(path, '/');
    JoinSplit(path, '/');
    if fields[0] != "" then None
    else
      var rest := fields[1..];
      assert fields == [""] + rest;
      if |rest| > 0 && rest[|rest| - 1] == "" then
        var segs := rest[..|rest| - 1];
        assert fields == ([""] + segs) + [""];
        JoinSnoc([""] + segs, "", '/');
        Some(segs)
      else Some(rest)
  }

  lemma {:induction false} JoinSnoc(fields: seq<string>, last: string, sep: char)
    requires |fields| >= 1
    ensures Join(fields + [last], sep) == Join(fields, sep) + [sep] + last
    decreases |fields|
  {
    if |fields| > 1 {
      assert (fields + [last])[1..] == fields[1..] + [last];
      JoinSnoc(fields[1..], last, sep);
    }
  }

  /** A path built from slash-free segments gives back those segments, with
      or without a trailing slash. */
  lemma SegmentsOfPathOf(segs: seq<string>)
    requires forall i :: 0 <= i < |segs| ==> '/' !in segs[i]
    requires |segs| > 0 && segs[|segs| - 1] != ""
    ensures SegmentsOf(PathOf(segs)) == Some(segs)
    ensures SegmentsOf(PathOf(segs) + "/") == Some(segs)
  {
    var fields := [""] + segs;
    SplitJoin(fields, '/');
    SegmentsOfSplit(PathOf(segs), segs);
    var slashed := fields + [""];
    JoinSnoc(fields, "", '/');
    var path := PathOf(segs) + "/";
    assert path == Join(fields, '/') + ['/'] + "";
    assert Join(slashed, '/') == path;
    SplitJoin(slashed, '/');
    assert slashed == [""] + (segs + [""]);
    SegmentsOfSplit(path, segs + [""]);
    assert (segs + [""])[..|segs|] == segs;
  }

  predicate LiteralMatches(lit: string, s: string) {
    EqualsIgnoringCase(lit, s)
  }

  predicate SegmentMatches(p: Segment, s: string) {
    match p
    case Lit(text) => LiteralMatches(text, s)
    case Param(_) => s != ""
  }

  predicate PatternMatches(pattern: seq<Segment>, segs: seq<string>) {
    |pattern| == |segs| && forall i :: 0 <= i < |segs| ==> SegmentMatches(pattern[i], segs[i])
  }

  predicate PrefixMatches(prefix: seq<string>, segs: seq<string>) {
    |prefix| <= |segs| && forall i :: 0 <= i < |prefix| ==> LiteralMatches(prefix[i], segs[i])
  }

  /** The value of the route's parameter: the segment in the position of the
      pattern's first parameter, or "" for a pattern without one. Every
      pattern here has at most one parameter. */
  function Argument(pattern: seq<Segment>, segs: seq<string>): (a: string)
    requires |pattern| == |segs|
    ensures forall i :: (&& 0 <= i < |pattern| && pattern[i].Param?
                         && (forall j :: 0 <= j < i ==> pattern[j].Lit?)) ==> a == segs[i]
    ensures (forall i :: 0 <= i < |pattern| ==> pattern[i].Lit?) ==> a == ""
  {
    match First(pattern, (p: Segment) => p.Param?)
    case None => ""
    case Some(i) => segs[i]
  }

  predicate RouteMatches(rt: Route, verb: Method, segs: seq<string>) {
    rt.verb == verb && PatternMatches(rt.pattern, segs)
  }

  datatype Resolved = Resolved(route: Route, argument: string)

  /** The first route of a router matching the method and the path below
      the router's mount point. */
  function RouteIn(routes: seq<Route>, verb: Method, rest: seq<string>): (r: Option<Resolved>)
    ensures r.None? <==> forall j :: 0 <= j < |routes| ==> !RouteMatches(routes[j], verb, rest)
    ensures r.Some? ==> r.value.route in routes
    ensures r.Some? ==> exists j :: && 0 <= j < |routes| && RouteMatches(routes[j], verb, rest)
                                   && (forall i :: 0 <= i < j ==> !RouteMatches(routes[i], verb, rest))
                                   && r.value == Resolved(routes[j], Argument(routes[j].pattern, rest))
  {
    match First(routes, (rt: Route) => RouteMatches(rt, verb, rest))
    case None => None
    case Some(j) => Some(Resolved(routes[j], Argument(routes[j].pattern, rest)))
  }

  /** The route a router picks is the first one that matches. */
  lemma RouteInPicks(routes: seq<Route>, verb: Method, rest: seq<string>, j: nat)
    requires j < |routes| && RouteMatches(routes[j], verb, rest)
    requires forall i :: 0 <= i < j ==> !RouteMatches(routes[i], verb, rest)
    ensures RouteIn(routes, verb, rest) == Some(Resolved(routes[j], Argument(routes[j].pattern, rest)))
  {
  }

  /** The mount whose prefix a path's segments start with, the first one in
      mount order. */
  predicate FirstMount(segs: seq<string>, m: int) {
    && 0 <= m < |Mounts| && PrefixMatches(Mounts[m].prefix, segs)
    && forall j :: 0 <= j < m ==> !PrefixMatches(Mounts[j].prefix, segs)
  }

  /** The path a mounted router sees below its prefix. A mount matches its
      prefix non-strictly, so the slash after the prefix may be taken along
      with it: one empty segment right after the prefix is consumed, and
      `/api/v1/users//me` reaches the user router as `/me`. */
  function BelowMount(rest: seq<string>): (r: seq<string>)
    ensures |rest| > 0 && rest[0] == "" ==> [""] + r == rest
    ensures |rest| == 0 || rest[0] != "" ==> r == rest
  {
    if |rest| > 0 && rest[0] == "" then rest[1..] else rest
  }

  /** The route a request reaches: the first mount whose prefix the path
      starts with, then the first route of that router matching the method
      and the rest of the path. */
  function Resolve(verb: Method, path: string): (r: Option<Resolved>)
    ensures SegmentsOf(path).None? ==> r.None?
    ensures (&& SegmentsOf(path).Some?
             && forall m :: 0 <= m < |Mounts| ==> !PrefixMatches(Mounts[m].prefix, SegmentsOf(path).value)) ==> r.None?
    ensures SegmentsOf(path).Some? ==>
              forall m :: FirstMount(SegmentsOf(path).value, m) ==>
                r == RouteIn(Mounts[m].routes, verb, BelowMount(SegmentsOf(path).value[|Mounts[m].prefix|..]))
    ensures r.Some? ==> r.value.route in UserRoutes + QuoteRoutes
  {
    match SegmentsOf(path)
    case None => None
    case Some(segs) =>
      var p := (m: Mount) => PrefixMatches(m.prefix, segs);
      match First(Mounts, p)
      case None => None
      case Some(m) =>
        assert forall m' :: FirstMount(segs, m') ==> m' == m by {
          forall m' | FirstMount(segs, m') ensures m' == m {
            FirstAt(Mounts, p, m');
          }
        }
        RouteIn(Mounts[m].routes, verb, BelowMount(segs[|Mounts[m].prefix|..]))
  }

  /** A request at or below a mount point is resolved by that mount's router
      alone, on the path below the prefix. */
  lemma ResolveUnder(verb: Method, m: nat, tail: seq<string>)
    requires m < |Mounts|
    requires forall i :: 0 <= i < |tail| ==> '/' !in tail[i]
    requires |tail| > 0 ==> tail[|tail| - 1] != ""
    ensures Resolve(verb, PathOf(Mounts[m].prefix + tail)) == RouteIn(Mounts[m].routes, verb, BelowMount(tail))
  {
    var segs := Mounts[m].prefix + tail;
    assert forall i :: 0 <= i < |segs| ==> '/' !in segs[i] by {
      forall i | 0 <= i < |segs| ensures '/' !in segs[i] {
        if i >= |Mounts[m].prefix| { assert segs[i] == tail[i - |Mounts[m].prefix|]; }
      }
    }
    assert segs[|segs| - 1] != "";
    SegmentsOfPathOf(segs);
    MountOfPrefix(m, tail);
    assert segs[|Mounts[m].prefix|..] == tail;
  }

  /** Segments that start with a mount's prefix belong to that mount: the
      prefixes differ in their third segment. */
  lemma MountOfPrefix(m: nat, tail: seq<string>)
    requires m < |Mounts|
    ensures FirstMount(Mounts[m].prefix + tail, m)
  {
    var segs := Mounts[m].prefix + tail;
    assert segs[..3] == Mounts[m].prefix;
    if m == 1 {
      assert !PrefixMatches(Mounts[0].prefix, segs) by {
        assert segs[2] == "quotes";
        assert !LiteralMatches("users", "quotes");
      }
    }
  }

  /** The mount roots: POST and GET on `/api/v1/quotes` reach quote creation
      and the full listing, and GET on `/api/v1/users` the router's root. */
  lemma MountRoots()
    ensures Resolve(Post, PathOf(Mounts[1].prefix)) == Some(Resolved(QuoteRoutes[0], ""))
    ensures Resolve(Get, PathOf(Mounts[1].prefix)) == Some(Resolved(QuoteRoutes[1], ""))
    ensures Resolve(Get, PathOf(Mounts[0].prefix)) == Some(Resolved(UserRoutes[0], ""))
    ensures QuoteRoutes[0].handler == AddQuote && QuoteRoutes[0].guarded
  {
    assert Mounts[1].prefix + [] == Mounts[1].prefix && Mounts[0].prefix + [] == Mounts[0].prefix;
    ResolveUnder(Post, 1, []);
    ResolveUnder(Get, 1, []);
    ResolveUnder(Get, 0, []);
    RootRoutesIn();
  }

  lemma RootRoutesIn()
    ensures RouteIn(QuoteRoutes, Post, []) == Some(Resolved(QuoteRoutes[0], ""))
    ensures RouteIn(QuoteRoutes, Get, []) == Some(Resolved(QuoteRoutes[1], ""))
    ensures RouteIn(UserRoutes, Get, []) == Some(Resolved(UserRoutes[0], ""))
  {
    assert !RouteMatches(QuoteRoutes[0], Get, []);
    RouteInPicks(QuoteRoutes, Post, [], 0);
    RouteInPicks(QuoteRoutes, Get, [], 1);
    RouteInPicks(UserRoutes, Get, [], 0);
  }

  /** At a mount root, a trailing slash and a doubled one (`/api/v1/quotes/`,
      `/api/v1/quotes//`) reach the same route as the bare prefix. */
  lemma SlashesAtMountRoot(verb: Method, m: nat)
    requires m < |Mounts|
    ensures Resolve(verb, PathOf(Mounts[m].prefix) + "/") == Resolve(verb, PathOf(Mounts[m].prefix))
    ensures Resolve(verb, PathOf(Mounts[m].prefix + [""]) + "/") == Resolve(verb, PathOf(Mounts[m].prefix))
  {
    var prefix := Mounts[m].prefix;
    assert forall i :: 0 <= i < |prefix| ==> '/' !in prefix[i];
    SegmentsOfPathOf(prefix);
    SegmentsOfDoubledEnd(prefix);
    MountOfPrefix(m, []);
    MountOfPrefix(m, [""]);
    assert prefix + [] == prefix;
    assert (prefix + [""])[|prefix|..] == [""];
  }

  /** A path ending in two slashes keeps one empty last segment. */
  lemma SegmentsOfDoubledEnd(segs: seq<string>)
    requires forall i :: 0 <= i < |segs| ==> '/' !in segs[i]
    ensures SegmentsOf(PathOf(segs + [""]) + "/") == Some(segs + [""])
  {
    var rest := segs + ["", ""];
    var fields := [""] + rest;
    assert forall i :: 0 <= i < |fields| ==> '/' !in fields[i] by {
      forall i | 0 <= i < |fields| ensures '/' !in fields[i] {
        if 0 < i <= |segs| { assert fields[i] == segs[i - 1]; }
      }
    }
    var head := [""] + (segs + [""]);
    assert fields == head + [""];
    JoinSnoc(head, "", '/');
    var path := PathOf(segs + [""]) + "/";
    assert path == Join(head, '/') + ['/'] + "";
    assert Join(fields, '/') == path;
    SplitJoin(fields, '/');
    SegmentsOfSplit(path, rest);
    assert rest[..|rest| - 1] == segs + [""];
  }

  /** The segments of a path whose split on `/` is known. */
  lemma SegmentsOfSplit(path: string, rest: seq<string>)
    requires Split(path, '/') == [""] + rest
    ensures |rest| > 0 && rest[|rest| - 1] == "" ==> SegmentsOf(path) == Some(rest[..|rest| - 1])
    ensures |rest| == 0 || rest[|rest| - 1] != "" ==> SegmentsOf(path) == Some(rest)
  {
    assert (Split(path, '/'))[1..] == rest;
  }

  /** A doubled slash right after a mount prefix reaches the same route as a
      single one: the mount takes the extra slash along with the prefix. */
  lemma DoubledSlashAfterMount(verb: Method, m: nat, tail: seq<string>)
    requires m < |Mounts|
    requires forall i :: 0 <= i < |tail| ==> '/' !in tail[i]
    requires |tail| > 0 && tail[0] != "" && tail[|tail| - 1] != ""
    ensures Resolve(verb, PathOf(Mounts[m].prefix + [""] + tail)) == Resolve(verb, PathOf(Mounts[m].prefix + tail))
    ensures Resolve(verb, PathOf(Mounts[m].prefix + tail)) == RouteIn(Mounts[m].routes, verb, tail)
  {
    var t := [""] + tail;
    assert Mounts[m].prefix + [""] + tail == Mounts[m].prefix + t;
    ResolveUnder(verb, m, t);
    ResolveUnder(verb, m, tail);
    assert t[1..] == tail;
  }

  /** GET `/me` reaches the profile of the caller and never the profile
      lookup by username, registered after it; `/me` matches regardless of
      case. */
  lemma MeShadowsUsername(s: string)
    requires EqualsIgnoringCase("me", s)
    ensures Resolve(Get, PathOf(Mounts[0].prefix + [s])) == Some(Resolved(UserRoutes[4], ""))
    ensures UserRoutes[4].handler == Me && UserRoutes[4].guarded
  {
    assert '/' !in s by {
      forall i | 0 <= i < |s| ensures s[i] != '/' {
        assert LowerChar(s[i]) == LowerChar("me"[i]);
      }
    }
    ResolveUnder(Get, 0, [s]);
    MeRouteIn(s);
  }

  lemma MeRouteIn(s: string)
    requires EqualsIgnoringCase("me", s)
    ensures RouteIn(UserRoutes, Get, [s]) == Some(Resolved(UserRoutes[4], ""))
  {
    assert RouteMatches(UserRoutes[4], Get, [s]);
    assert !RouteMatches(UserRoutes[0], Get, [s]);
    assert !RouteMatches(UserRoutes[1], Get, [s]);
    assert !RouteMatches(UserRoutes[2], Get, [s]);
    assert !RouteMatches(UserRoutes[3], Get, [s]);
    RouteInPicks(UserRoutes, Get, [s], 4);
  }

  /** Any other single segment on GET is a username lookup, even
      `register` and `login`. */
  lemma UsernameRoute(s: string)
    requires s != "" && '/' !in s && !EqualsIgnoringCase("me", s)
    ensures Resolve(Get, PathOf(Mounts[0].prefix + [s])) == Some(Resolved(UserRoutes[5], s))
    ensures UserRoutes[5].handler == GetUserByUsername && !UserRoutes[5].guarded
  {
    ResolveUnder(Get, 0, [s]);
    UsernameRouteIn(s);
  }

  lemma UsernameRouteIn(s: string)
    requires s != "" && !EqualsIgnoringCase("me", s)
    ensures RouteIn(UserRoutes, Get, [s]) == Some(Resolved(UserRoutes[5], s))
  {
    assert RouteMatches(UserRoutes[5], Get, [s]);
    assert !RouteMatches(UserRoutes[0], Get, [s]);
    assert !RouteMatches(UserRoutes[1], Get, [s]);
    assert !RouteMatches(UserRoutes[2], Get, [s]);
    assert !RouteMatches(UserRoutes[3], Get, [s]);
    assert !RouteMatches(UserRoutes[4], Get, [s]) by {
      assert !SegmentMatches(UserRoutes[4].pattern[0], [s][0]);
    }
    RouteInPicks(UserRoutes, Get, [s], 5);
  }

  /** `/user/:userId` has two segments, so `/:id`, registered before it,
      never captures it. */
  lemma UserQuotesRoute(x: string)
    requires x != "" && '/' !in x
    ensures Resolve(Get, PathOf(Mounts[1].prefix + ["user", x])) == Some(Resolved(QuoteRoutes[3], x))
    ensures QuoteRoutes[3].handler == GetQuotesByUserId && !QuoteRoutes[3].guarded
  {
    var tail := ["user", x];
    assert forall i :: 0 <= i < |tail| ==> '/' !in tail[i] by {
      assert '/' !in tail[0];
    }
    ResolveUnder(Get, 1, tail);
    UserQuotesRouteIn(x);
  }

  lemma UserQuotesRouteIn(x: string)
    requires x != ""
    ensures RouteIn(QuoteRoutes, Get, ["user", x]) == Some(Resolved(QuoteRoutes[3], x))
  {
    var tail := ["user", x];
    assert RouteMatches(QuoteRoutes[3], Get, tail);
    assert !RouteMatches(QuoteRoutes[0], Get, tail);
    assert !RouteMatches(QuoteRoutes[1], Get, tail);
    assert !RouteMatches(QuoteRoutes[2], Get, tail);
    RouteInPicks(QuoteRoutes, Get, tail, 3);
    assert Argument(QuoteRoutes[3].pattern, tail) == x;
  }

  /** A single segment on GET is a quote id, `user` included. */
  lemma QuoteByIdRoute(x: string)
    requires x != "" && '/' !in x
    ensures Resolve(Get, PathOf(Mounts[1].prefix + [x])) == Some(Resolved(QuoteRoutes[2], x))
    ensures QuoteRoutes[2].handler == GetQuoteById && !QuoteRoutes[2].guarded
  {
    ResolveUnder(Get, 1, [x]);
    QuoteByIdRouteIn(x);
  }

  lemma QuoteByIdRouteIn(x: string)
    requires x != ""
    ensures RouteIn(QuoteRoutes, Get, [x]) == Some(Resolved(QuoteRoutes[2], x))
  {
    assert RouteMatches(QuoteRoutes[2], Get, [x]);
    assert !RouteMatches(QuoteRoutes[0], Get, [x]);
    assert !RouteMatches(QuoteRoutes[1], Get, [x]);
    RouteInPicks(QuoteRoutes, Get, [x], 2);
  }

  datatype Request = Request(verb: Method, path: string, authorization: Option<string>, body: map<string, string>)

  /** Runs a handler. A handler that reads the caller where there is none
      fails the way reading a property of `undefined` does. */
  function Run(env: Env, db: Db, h: Handler, caller: Option<User>, argument: string,
               body: map<string, string>, rnd: Entropy): (r: Reply)
    ensures NeedsCaller(h) && caller.None? ==> r == Reply(Fail(Raised(TypeError)), db)
    ensures !r.outcome.Unmatched?
    ensures r.outcome != Fail(Raised(TypeError)) || (NeedsCaller(h) && caller.None?)
    ensures h in {UsersRoot, Login, Me, GetUserByUsername, GetQuotes, GetQuoteById, GetQuotesByUserId} ==> r.db == db
  {
    if NeedsCaller(h) && caller.None? then Reply(Fail(Raised(TypeError)), db)
    else if IsUserHandler(h) then RunUserHandler(env, db, h, caller, argument, body, rnd)
    else RunQuoteHandler(env, db, h, caller, argument, body, rnd)
  }

  /** The handlers of the user router. */
  predicate IsUserHandler(h: Handler) {
    h in {UsersRoot, Register, Login, ActivateAccount, Me, GetUserByUsername, UpdateUser, DeleteUser}
  }

  /** Runs a handler of the user router that has the caller it needs. */
  function RunUserHandler(env: Env, db: Db, h: Handler, caller: Option<User>, argument: string,
                          body: map<string, string>, rnd: Entropy): (r: Reply)
    requires IsUserHandler(h) && (NeedsCaller(h) ==> caller.Some?)
    ensures r.outcome.Ok? || (r.outcome.Fail? && r.outcome.error != Raised(TypeError))
    ensures h in {UsersRoot, Login, Me, GetUserByUsername} ==> r.db == db
  {
    match h
    case UsersRoot => Reply(Ok(200, None, Plain(UsersRootText)), db)
    case Register => UserControllers.Register(env, db, body, rnd)
    case Login => Reply(UserControllers.Login(env, db, body, rnd.nowMs), db)
    case ActivateAccount => UserControllers.ActivateAccount(env, db, argument, rnd)
    case Me => Reply(UserControllers.Me(db, caller.value), db)
    case GetUserByUsername => Reply(UserControllers.GetUserByUsername(db, argument), db)
    case UpdateUser => UserControllers.UpdateUser(env, db, caller.value, argument, body, rnd)
    case DeleteUser => UserControllers.DeleteUser(db, caller.value, argument)
  }

  /** Runs a handler of the quote router that has the caller it needs. */
  function RunQuoteHandler(env: Env, db: Db, h: Handler, caller: Option<User>, argument: string,
                           body: map<string, string>, rnd: Entropy): (r: Reply)
    requires !IsUserHandler(h) && (NeedsCaller(h) ==> caller.Some?)
    ensures r.outcome.Ok? || (r.outcome.Fail? && r.outcome.error != Raised(TypeError))
    ensures h in {GetQuotes, GetQuoteById, GetQuotesByUserId} ==> r.db == db
  {
    match h
    case AddQuote => QuoteControllers.AddQuote(db, caller.value, body, rnd)
    case GetQuotes => Reply(QuoteControllers.GetQuotes(db), db)
    case GetQuoteById => Reply(QuoteControllers.GetQuoteById(db, argument), db)
    case GetQuotesByUserId => Reply(QuoteControllers.GetQuotesByUserId(db, argument), db)
    case EditQuote => QuoteControllers.EditQuote(db, caller.value, argument, body)
    case DeleteQuote => QuoteControllers.DeleteQuote(db, caller.value, argument)
  }

  /** A request through the application: no route gives the fall-through
      404; a guarded route runs `protect` first, and a refusal there ends
      the request with the store unchanged; otherwise the handler runs with
      the caller the guard loaded. */
  function Dispatch(env: Env, db: Db, req: Request, rnd: Entropy): (r: Reply)
    ensures Resolve(req.verb, req.path).None? <==> r.outcome.Unmatched?
    ensures r.outcome.Unmatched? ==> r.db == db
    ensures var res := Resolve(req.verb, req.path);
            var guard := Protect(env, db, req.authorization, rnd.nowMs);
            res.Some? && res.value.route.guarded && guard.Denied? ==> r == Reply(Fail(guard.error), db)
    ensures var res := Resolve(req.verb, req.path);
            var guard := Protect(env, db, req.authorization, rnd.nowMs);
            res.Some? && res.value.route.guarded && guard.Admitted? ==>
              r == Run(env, db, res.value.route.handler, Some(guard.user), res.value.argument, req.body, rnd)
    ensures var res := Resolve(req.verb, req.path);
            res.Some? && !res.value.route.guarded ==>
              r == Run(env, db, res.value.route.handler, None, res.value.argument, req.body, rnd)
  {
    match Resolve(req.verb, req.path)
    case None => Reply(Unmatched, db)
    case Some(res) =>
      if res.route.guarded then
        match Protect(env, db, req.authorization, rnd.nowMs)
        case Denied(e) => Reply(Fail(e), db)
        case Admitted(u) => Run(env, db, res.route.handler, Some(u), res.argument, req.body, rnd)
      else Run(env, db, res.route.handler, None, res.argument, req.body, rnd)
  }

  /** Exactly the handlers that read the caller sit behind the guard. */
  lemma GuardedExactlyWhenCallerNeeded()
    ensures forall rt :: rt in UserRoutes + QuoteRoutes ==> (rt.guarded <==> NeedsCaller(rt.handler))
  {
    UserTable();
    QuoteTable();
    forall rt | rt in UserRoutes + QuoteRoutes
      ensures rt.guarded <==> NeedsCaller(rt.handler)
    {
      InTables(rt);
    }
  }

  /** A route of either router sits at some position of its table. */
  lemma InTables(rt: Route)
    requires rt in UserRoutes + QuoteRoutes
    ensures || (exists i :: 0 <= i < |UserRoutes| && UserRoutes[i] == rt)
            || (exists i :: 0 <= i < |QuoteRoutes| && QuoteRoutes[i] == rt)
  {
    var i :| 0 <= i < |UserRoutes + QuoteRoutes| && (UserRoutes + QuoteRoutes)[i] == rt;
    if i < |UserRoutes| {
      assert UserRoutes[i] == rt;
    } else {
      assert QuoteRoutes[i - |UserRoutes|] == rt;
    }
  }

  /** The user router, position by position: guarded exactly for the
      handlers that read the caller, and GET only for the read handlers. */
  lemma UserTable()
    ensures forall i :: 0 <= i < |UserRoutes| ==> (UserRoutes[i].guarded <==> NeedsCaller(UserRoutes[i].handler))
    ensures forall i :: 0 <= i < |UserRoutes| && UserRoutes[i].verb == Get ==>
              UserRoutes[i].handler in {UsersRoot, ActivateAccount, Me, GetUserByUsername}
  {
  }

  /** The quote router, position by position. */
  lemma QuoteTable()
    ensures forall i :: 0 <= i < |QuoteRoutes| ==> (QuoteRoutes[i].guarded <==> NeedsCaller(QuoteRoutes[i].handler))
    ensures forall i :: 0 <= i < |QuoteRoutes| && QuoteRoutes[i].verb == Get ==>
              QuoteRoutes[i].handler in {GetQuotes, GetQuoteById, GetQuotesByUserId}
  {
  }

  /** No request reaches a handler without the caller it needs. */
  lemma NoHandlerLacksCaller(env: Env, db: Db, req: Request, rnd: Entropy)
    ensures Dispatch(env, db, req, rnd).outcome != Fail(Raised(TypeError))
  {
    if Resolve(req.verb, req.path).Some? {
      ResolvedGuardedIffNeedsCaller(req.verb, req.path);
      GuardRaisesNoTypeError(env, db, req.authorization, rnd.nowMs);
    }
  }

  /** The guard refuses with a 401, a 404 or a token error, never with a
      type error. */
  lemma GuardRaisesNoTypeError(env: Env, db: Db, header: Option<string>, nowMs: nat)
    ensures Protect(env, db, header, nowMs).Denied? ==> Protect(env, db, header, nowMs).error != Raised(TypeError)
  {
  }

  /** A resolved route is guarded exactly when its handler reads the caller. */
  lemma ResolvedGuardedIffNeedsCaller(verb: Method, path: string)
    requires Resolve(verb, path).Some?
    ensures Resolve(verb, path).value.route.guarded <==> NeedsCaller(Resolve(verb, path).value.route.handler)
  {
    GuardedExactlyWhenCallerNeeded();
  }

  /** The public routes do not look at the Authorization header. */
  lemma PublicRoutesIgnoreAuthorization(env: Env, db: Db, req: Request, header: Option<string>, rnd: Entropy)
    requires Resolve(req.verb, req.path).Some? ==> !Resolve(req.verb, req.path).value.route.guarded
    ensures Dispatch(env, db, req, rnd) == Dispatch(env, db, req.(authorization := header), rnd)
  {
  }

  /** A GET request changes the store only through account activation. */
  lemma GetWritesOnlyOnActivation(env: Env, db: Db, req: Request, rnd: Entropy)
    ensures req.verb == Get && Dispatch(env, db, req, rnd).db != db ==>
              && Resolve(req.verb, req.path).Some?
              && Resolve(req.verb, req.path).value.route.handler == ActivateAccount
  {
    if req.verb == Get && Dispatch(env, db, req, rnd).db != db {
      var res := Resolve(req.verb, req.path);
      assert res.Some?;
      assert res.value.route.verb == Get;
      ReadRoutesAreGets();
    }
  }

  /** The GET routes and the handlers behind them. */
  lemma ReadRoutesAreGets()
    ensures forall rt :: rt in UserRoutes + QuoteRoutes && rt.verb == Get ==>
              rt.handler in {UsersRoot, ActivateAccount, Me, GetUserByUsername,
                             GetQuotes, GetQuoteById, GetQuotesByUserId}
  {
    UserTable();
    QuoteTable();
    forall rt | rt in UserRoutes + QuoteRoutes && rt.verb == Get
      ensures rt.handler in {UsersRoot, ActivateAccount, Me, GetUserByUsername,
                             GetQuotes, GetQuoteById, GetQuotesByUserId}
    {
      InTables(rt);
    }
  }

  /** Every request keeps the store valid. */
  lemma DispatchPreservesValid(env: Env, db: Db, req: Request, rnd: Entropy)
    requires Valid(env, db)
    ensures Valid(env, Dispatch(env, db, req, rnd).db)
  {
    var r := Dispatch(env, db, req, rnd);
    match Resolve(req.verb, req.path)
    case None =>
    case Some(res) =>
      if res.route.guarded {
        match Protect(env, db, req.authorization, rnd.nowMs)
        case Denied(_) =>
        case Admitted(u) => RunPreservesValid(env, db, res.route.handler, Some(u), res.argument, req.body, rnd);
      } else {
        RunPreservesValid(env, db, res.route.handler, None, res.argument, req.body, rnd);
      }
  }

  lemma RunPreservesValid(env: Env, db: Db, h: Handler, caller: Option<User>, argument: string,
                          body: map<string, string>, rnd: Entropy)
    requires Valid(env, db)
    ensures Valid(env, Run(env, db, h, caller, argument, body, rnd).db)
  {
    if !(NeedsCaller(h) && caller.None?) {
      match h
      case Register => Lifecycle.RegisterPreservesValid(env, db, body, rnd);
      case ActivateAccount => Lifecycle.ActivateAccountPreservesValid(env, db, argument, rnd);
      case UpdateUser => Lifecycle.UpdateUserPreservesValid(env, db, caller.value, argument, body, rnd);
      case DeleteUser => Lifecycle.DeleteUserPreservesValid(env, db, caller.value, argument);
      case AddQuote => QuoteControllers.AddQuotePreservesValid(env, db, caller.value, body, rnd);
      case EditQuote => QuoteControllers.EditQuotePreservesValid(env, db, caller.value, argument, body);
      case DeleteQuote => QuoteControllers.DeleteQuotePreservesValid(env, db, caller.value, argument);
      case _ =>
    }
  }
}

=== FILE: seqs.dfy ===
/** Sequence helpers shared by the whole model.

    The document store keeps each collection in natural (insertion) order, so a
    `findOne` query is the first element that matches its filter, a `find` query
    is an order-preserving filter, and collections are compared pairwise for the
    unique indexes the schemas declare. */
module Seqs {

  datatype Option<+T> = None | Some(value: T)

  datatype Result<+T, +E> = Success(value: T) | Failure(error: E)

  /** Index of the first element that satisfies `p`: what `findOne` returns
      when several documents match. */
  function First<T>(s: seq<T>, p: T -> bool): (r: Option<nat>)
    ensures r.Some? ==> r.value < |s| && p(s[r.value])
    ensures r.Some? ==> forall j :: 0 <= j < r.value ==> !p(s[j])
    ensures r.None? <==> forall j :: 0 <= j < |s| ==> !p(s[j])
    decreases |s|
  {
    if |s| == 0 then None
    else if p(s[0]) then Some(0)
    else match First(s[1..], p)
      case None => None
      case Some(k) => Some(k + 1)
  }

  /** The first match is at `k` when `k` matches and nothing before it does. */
  lemma FirstAt<T>(s: seq<T>, p: T -> bool, k: nat)
    requires k < |s| && p(s[k])
    requires forall j :: 0 <= j < k ==> !p(s[j])
    ensures First(s, p) == Some(k)
  {
  }

  /** The elements of `s` that satisfy `p`, in their original order. */
  function Filter<T>(s: seq<T>, p: T -> bool): (r: seq<T>)
    ensures |r| <= |s|
    ensures forall i :: 0 <= i < |r| ==> r[i] in s && p(r[i])
    ensures forall i :: 0 <= i < |s| && p(s[i]) ==> s[i] in r
    decreases |s|
  {
    if |s| == 0 then []
    else (if p(s[0]) then [s[0]] else []) + Filter(s[1..], p)
  }

  /** Filtering distributes over concatenation, so appending an element to a
      collection appends at most that element to every filtered view of it. */
  lemma {:induction false} FilterAppend<T>(s: seq<T>, t: seq<T>, p: T -> bool)
    ensures Filter(s + t, p) == Filter(s, p) + Filter(t, p)
    decreases |s|
  {
    if |s| == 0 {
      assert s + t == t;
    } else {
      assert (s + t)[1..] == s[1..] + t;
      FilterAppend(s[1..], t, p);
    }
  }

  /** Filtering by a predicate every element satisfies keeps the whole sequence. */
  lemma {:induction false} FilterAll<T>(s: seq<T>, p: T -> bool)
    requires forall i :: 0 <= i < |s| ==> p(s[i])
    ensures Filter(s, p) == s
    decreases |s|
  {
    if |s| > 0 {
      FilterAll(s[1..], p);
    }
  }

  /** `Array.prototype.reverse`. */
  function Reverse<T>(s: seq<T>): (r: seq<T>)
    ensures |r| == |s|
    ensures forall i :: 0 <= i < |s| ==> r[i] == s[|s| - 1 - i]
    decreases |s|
  {
    if |s| == 0 then [] else Reverse(s[1..]) + [s[0]]
  }

  /** No two elements share a key: a unique index over the collection. */
  ghost predicate DistinctBy<T, K>(s: seq<T>, key: T -> K) {
    forall i, j :: 0 <= i < j < |s| ==> key(s[i]) != key(s[j])
  }

  lemma DistinctAppend<T, K>(s: seq<T>, x: T, key: T -> K)
    requires DistinctBy(s, key)
    requires forall i :: 0 <= i < |s| ==> key(s[i]) != key(x)
    ensures DistinctBy(s + [x], key)
  {
    var t := s + [x];
    forall i, j | 0 <= i < j < |t|
      ensures key(t[i]) != key(t[j])
    {
      if j == |s| {
        assert t[i] == s[i];
      } else {
        assert t[i] == s[i] && t[j] == s[j];
      }
    }
  }

  lemma DistinctRemove<T, K>(s: seq<T>, k: nat, key: T -> K)
    requires DistinctBy(s, key)
    requires k < |s|
    ensures DistinctBy(s[..k] + s[k + 1..], key)
  {
    var t := s[..k] + s[k + 1..];
    forall i, j | 0 <= i < j < |t|
      ensures key(t[i]) != key(t[j])
    {
      var i' := if i < k then i else i + 1;
      var j' := if j < k then j else j + 1;
      assert t[i] == s[i'] && t[j] == s[j'];
    }
  }

  lemma DistinctUpdate<T, K>(s: seq<T>, k: nat, x: T, key: T -> K)
    requires DistinctBy(s, key)
    requires k < |s| && key(x) == key(s[k])
    ensures DistinctBy(s[k := x], key)
  {
    var t := s[k := x];
    forall i, j | 0 <= i < j < |t|
      ensures key(t[i]) != key(t[j])
    {
      assert key(t[i]) == key(s[i]) && key(t[j]) == key(s[j]);
    }
  }

  /** With a unique key, the element holding a key is the first one holding it. */
  lemma DistinctFirst<T, K>(s: seq<T>, k: nat, key: T -> K, p: T -> bool)
    requires DistinctBy(s, key)
    requires k < |s| && p(s[k])
    requires forall x :: p(x) ==> key(x) == key(s[k])
    ensures First(s, p) == Some(k)
  {
  }
}

=== FILE: store.dfy ===
/** The document store: the users and quotes collections in natural order,
    the queries the handlers issue, and the writes with the unique indexes
    the schemas declare (`_id` on both collections, `username` and `email` on
    users). `Valid` is the invariant every handler preserves. */
module Store {
  import opened Seqs
  import opened Text
  import opened Errors
  import opened Externals
  import opened UserModel
  import QuoteModel

  type Quote = QuoteModel.Quote

  datatype Db = Db(users: seq<User>, quotes: seq<Quote>)

  function UserId(u: User): ObjectId { u.id }
  function UserName(u: User): string { u.username }
  function UserEmail(u: User): string { u.email }
  function QuoteId(q: Quote): ObjectId { q.id }

  ghost predicate Valid(env: Env, db: Db) {
    && (forall i :: 0 <= i < |db.users| ==> WellFormed(env, db.users[i]))
    && DistinctBy(db.users, UserId)
    && DistinctBy(db.users, UserName)
    && DistinctBy(db.users, UserEmail)
    && (forall i :: 0 <= i < |db.quotes| ==> QuoteModel.WellFormed(db.quotes[i]))
    && DistinctBy(db.quotes, QuoteId)
  }

  /** Position `k` holds the first stored user with this id: the one
      `findById` returns. */
  predicate FirstUserWithId(db: Db, k: int, id: ObjectId) {
    && 0 <= k < |db.users| && db.users[k].id == id
    && forall j :: 0 <= j < k ==> db.users[j].id != id
  }

  /** `User.findById(id)`: the position of the user with that id. */
  function FindUserById(db: Db, id: ObjectId): (r: Option<nat>)
    ensures r.Some? ==> r.value < |db.users| && db.users[r.value].id == id
    ensures r.Some? ==> FirstUserWithId(db, r.value, id)
    ensures r.None? <==> forall i :: 0 <= i < |db.users| ==> db.users[i].id != id
  {
    First(db.users, (u: User) => u.id == id)
  }

  /** The first user with an id is the one the lookup finds. */
  lemma FirstUserWithIdFound(db: Db, id: ObjectId)
    ensures forall k :: FirstUserWithId(db, k, id) ==> FindUserById(db, id) == Some(k)
  {
    forall k | FirstUserWithId(db, k, id)
      ensures FindUserById(db, id) == Some(k)
    {
      FirstAt(db.users, (u: User) => u.id == id, k);
    }
  }

  /** `User.findOne({ email })`: the filter value goes through the lowercase
      setter; a missing value matches no user, since every user has one. */
  function FindUserByEmail(db: Db, email: Option<string>): (r: Option<nat>)
    ensures r.Some? ==> email.Some? && r.value < |db.users| && db.users[r.value].email == ToLower(email.value)
    ensures r.Some? ==> forall j :: 0 <= j < r.value ==> db.users[j].email != ToLower(email.value)
    ensures r.None? <==> email.None? || forall i :: 0 <= i < |db.users| ==> db.users[i].email != ToLower(email.value)
  {
    match email
    case None => None
    case Some(e) => First(db.users, (u: User) => u.email == ToLower(e))
  }

  /** `User.findOne({ username })`, matched exactly. */
  function FindUserByUsername(db: Db, username: Option<string>): (r: Option<nat>)
    ensures r.Some? ==> username.Some? && r.value < |db.users| && db.users[r.value].username == username.value
    ensures r.Some? ==> forall j :: 0 <= j < r.value ==> db.users[j].username != username.value
    ensures r.None? <==> username.None? || forall i :: 0 <= i < |db.users| ==> db.users[i].username != username.value
  {
    match username
    case None => None
    case Some(n) => First(db.users, (u: User) => u.username == n)
  }

  /** Position `k` holds the first stored user with this activation digest. */
  predicate FirstTokenHolder(db: Db, k: int, digest: string) {
    && 0 <= k < |db.users| && db.users[k].activationToken == Some(digest)
    && forall j :: 0 <= j < k ==> db.users[j].activationToken != Some(digest)
  }

  /** `User.findOne({ activationToken })`. */
  function FindUserByActivationToken(db: Db, digest: string): (r: Option<nat>)
    ensures r.Some? ==> r.value < |db.users| && db.users[r.value].activationToken == Some(digest)
    ensures r.Some? ==> FirstTokenHolder(db, r.value, digest)
    ensures r.Some? ==> forall j :: 0 <= j < r.value ==> db.users[j].activationToken != Some(digest)
    ensures r.None? <==> forall i :: 0 <= i < |db.users| ==> db.users[i].activationToken != Some(digest)
  {
    First(db.users, (u: User) => u.activationToken == Some(digest))
  }

  /** The first holder of a digest is the one the lookup finds. */
  lemma FirstTokenHolderFound(db: Db, digest: string)
    ensures forall k :: FirstTokenHolder(db, k, digest) ==> FindUserByActivationToken(db, digest) == Some(k)
  {
    forall k | FirstTokenHolder(db, k, digest)
      ensures FindUserByActivationToken(db, digest) == Some(k)
    {
      FirstAt(db.users, (u: User) => u.activationToken == Some(digest), k);
    }
  }

  /** `Quote.findById(id)`. */
  function FindQuoteById(db: Db, id: ObjectId): (r: Option<nat>)
    ensures r.Some? ==> r.value < |db.quotes| && db.quotes[r.value].id == id
    ensures r.Some? ==> forall j :: 0 <= j < r.value ==> db.quotes[j].id != id
    ensures r.None? <==> forall i :: 0 <= i < |db.quotes| ==> db.quotes[i].id != id
  {
    First(db.quotes, (q: Quote) => q.id == id)
  }

  /** `Quote.find({ createdBy: id })`, also the `quotes` virtual of a user:
      that user's quotes in natural order. */
  function QuotesBy(db: Db, id: ObjectId): (r: seq<Quote>)
    ensures forall i :: 0 <= i < |r| ==> r[i] in db.quotes && r[i].createdBy == id
    ensures forall i :: 0 <= i < |db.quotes| && db.quotes[i].createdBy == id ==> db.quotes[i] in r
  {
    Filter(db.quotes, (q: Quote) => q.createdBy == id)
  }

  /** Whether a new user would collide with a stored one on a unique index. */
  predicate UserConflicts(db: Db, u: User) {
    exists i :: 0 <= i < |db.users| && (db.users[i].id == u.id || db.users[i].username == u.username || db.users[i].email == u.email)
  }

  /** Inserting a user document: a duplicate key on any unique index rejects
      the write, otherwise the user is appended. */
  function InsertUser(db: Db, u: User): (r: Result<Db, Thrown>)
    ensures r.Failure? ==> r.error == DuplicateKey
    ensures r.Success? ==> r.value == db.(users := db.users + [u])
    ensures r.Success? <==> forall i :: 0 <= i < |db.users| ==>
              db.users[i].id != u.id && db.users[i].username != u.username && db.users[i].email != u.email
  {
    if UserConflicts(db, u) then Failure(DuplicateKey) else Success(db.(users := db.users + [u]))
  }

  /** Inserting a quote document, with the unique index on `_id`. */
  function InsertQuote(db: Db, q: Quote): (r: Result<Db, Thrown>)
    ensures r.Failure? ==> r.error == DuplicateKey
    ensures r.Success? ==> r.value == db.(quotes := db.quotes + [q])
    ensures r.Success? <==> forall i :: 0 <= i < |db.quotes| ==> db.quotes[i].id != q.id
  {
    if exists i :: 0 <= i < |db.quotes| && db.quotes[i].id == q.id then Failure(DuplicateKey)
    else Success(db.(quotes := db.quotes + [q]))
  }

  lemma InsertUserPreservesValid(env: Env, db: Db, u: User)
    requires Valid(env, db) && WellFormed(env, u)
    requires InsertUser(db, u).Success?
    ensures Valid(env, InsertUser(db, u).value)
  {
    var db' := InsertUser(db, u).value;
    DistinctAppend(db.users, u, UserId);
    DistinctAppend(db.users, u, UserName);
    DistinctAppend(db.users, u, UserEmail);
    assert forall i :: 0 <= i < |db'.users| ==> (i < |db.users| && db'.users[i] == db.users[i]) || db'.users[i] == u;
  }

  lemma InsertQuotePreservesValid(env: Env, db: Db, q: Quote)
    requires Valid(env, db) && QuoteModel.WellFormed(q)
    requires InsertQuote(db, q).Success?
    ensures Valid(env, InsertQuote(db, q).value)
  {
    var db' := InsertQuote(db, q).value;
    DistinctAppend(db.quotes, q, QuoteId);
    assert forall i :: 0 <= i < |db'.quotes| ==> (i < |db.quotes| && db'.quotes[i] == db.quotes[i]) || db'.quotes[i] == q;
  }

  /** Saving a user in place that keeps its id, username and e-mail and is
      still well formed keeps the store valid. */
  lemma SaveUserPreservesValid(env: Env, db: Db, k: nat, u: User)
    requires Valid(env, db) && k < |db.users|
    requires WellFormed(env, u)
    requires u.id == db.users[k].id && u.username == db.users[k].username && u.email == db.users[k].email
    ensures Valid(env, db.(users := db.users[k := u]))
  {
    DistinctUpdate(db.users, k, u, UserId);
    DistinctUpdate(db.users, k, u, UserName);
    DistinctUpdate(db.users, k, u, UserEmail);
  }

  lemma SaveQuotePreservesValid(env: Env, db: Db, k: nat, q: Quote)
    requires Valid(env, db) && k < |db.quotes|
    requires QuoteModel.WellFormed(q) && q.id == db.quotes[k].id
    ensures Valid(env, db.(quotes := db.quotes[k := q]))
  {
    DistinctUpdate(db.quotes, k, q, QuoteId);
  }

  lemma RemoveUserPreservesValid(env: Env, db: Db, k: nat)
    requires Valid(env, db) && k < |db.users|
    ensures Valid(env, db.(users := db.users[..k] + db.users[k + 1..]))
  {
    var us := db.users[..k] + db.users[k + 1..];
    DistinctRemove(db.users, k, UserId);
    DistinctRemove(db.users, k, UserName);
    DistinctRemove(db.users, k, UserEmail);
    assert forall i :: 0 <= i < |us| ==> us[i] == db.users[if i < k then i else i + 1];
  }

  lemma RemoveQuotePreservesValid(env: Env, db: Db, k: nat)
    requires Valid(env, db) && k < |db.quotes|
    ensures Valid(env, db.(quotes := db.quotes[..k] + db.quotes[k + 1..]))
  {
    var qs := db.quotes[..k] + db.quotes[k + 1..];
    DistinctRemove(db.quotes, k, QuoteId);
    assert forall i :: 0 <= i < |qs| ==> qs[i] == db.quotes[if i < k then i else i + 1];
  }

  /** In a valid store the user with a given id is unique, so every lookup
      that lands on that user's id lands on the same position. */
  lemma UniqueUserId(env: Env, db: Db, i: nat, j: nat)
    requires Valid(env, db) && i < |db.users| && j < |db.users|
    requires db.users[i].id == db.users[j].id
    ensures i == j
  {
  }
}

=== FILE: text.dfy ===
/** String operations the handlers rely on: the `lowercase` schema setter,
    `startsWith` and `split(' ')` in the bearer-header parser, JavaScript
    truthiness of optional request fields, the hex encoding of random bytes,
    and the ObjectId form of document identifiers. */
module Text {
  import opened Seqs

  type Byte = b: int | 0 <= b < 256

  /** A request field as JavaScript sees it: `undefined` or a string. A
      field is truthy when it is present and not the empty string. */
  predicate Truthy(v: Option<string>) {
    v.Some? && v.value != ""
  }

  predicate IsAsciiUpper(ch: char) {
    'A' <= ch <= 'Z'
  }

  predicate IsLower(s: string) {
    forall i :: 0 <= i < |s| ==> !IsAsciiUpper(s[i])
  }

  function LowerChar(ch: char): char {
    if IsAsciiUpper(ch) then (ch as int + 32) as char else ch
  }

  /** `String.prototype.toLowerCase`, on the ASCII letters. */
  function ToLower(s: string): (r: string)
    ensures |r| == |s|
    ensures IsLower(r)
    ensures forall i :: 0 <= i < |s| && !IsAsciiUpper(s[i]) ==> r[i] == s[i]
  {
    seq(|s|, i requires 0 <= i < |s| => LowerChar(s[i]))
  }

  /** Lowercasing leaves an already lowercase string alone, so applying the
      setter twice is applying it once. */
  lemma ToLowerIdempotent(s: string)
    ensures IsLower(s) ==> ToLower(s) == s
    ensures ToLower(ToLower(s)) == ToLower(s)
  {
  }

  /** Equality up to ASCII case, character by character: how a
      case-insensitive regular expression compares literal text. */
  predicate EqualsIgnoringCase(a: string, b: string) {
    |a| == |b| && forall i :: 0 <= i < |a| ==> LowerChar(a[i]) == LowerChar(b[i])
  }

  /** Two strings are equal up to case exactly when their lowercasings are
      equal. */
  lemma EqualsIgnoringCaseLower(a: string, b: string)
    ensures EqualsIgnoringCase(a, b) <==> ToLower(a) == ToLower(b)
  {
    var la, lb := ToLower(a), ToLower(b);
    assert forall i :: 0 <= i < |a| ==> la[i] == LowerChar(a[i]);
    assert forall i :: 0 <= i < |b| ==> lb[i] == LowerChar(b[i]);
    if EqualsIgnoringCase(a, b) {
      assert |la| == |lb| && forall i :: 0 <= i < |la| ==> la[i] == lb[i];
    }
  }

  /** `String.prototype.startsWith`. */
  predicate StartsWith(s: string, prefix: string) {
    prefix <= s
  }

  /** `String.prototype.split` with a one-character separator: the fields
      between separators, as many as there are separators plus one. */
  function Split(s: string, sep: char): (r: seq<string>)
    ensures |r| >= 1
    ensures forall i :: 0 <= i < |r| ==> sep !in r[i]
    decreases |s|
  {
    match First(s, (ch: char) => ch == sep)
    case None => [s]
    case Some(i) => [s[..i]] + Split(s[i + 1..], sep)
  }

  /** `Array.prototype.join` with a one-character separator. */
  function Join(fields: seq<string>, sep: char): string
    decreases |fields|
  {
    if |fields| == 0 then ""
    else if |fields| == 1 then fields[0]
    else fields[0] + [sep] + Join(fields[1..], sep)
  }

  /** Joining the fields of a split gives back the original string. */
  lemma {:induction false} JoinSplit(s: string, sep: char)
    ensures Join(Split(s, sep), sep) == s
    decreases |s|
  {
    match First(s, (ch: char) => ch == sep)
    case None =>
      assert Split(s, sep) == [s];
    case Some(i) =>
      var rest := Split(s[i + 1..], sep);
      var fields := Split(s, sep);
      assert fields == [s[..i]] + rest;
      assert |fields| >= 2 && fields[1..] == rest;
      JoinSplit(s[i + 1..], sep);
      assert Join(fields, sep) == s[..i] + [sep] + Join(rest, sep);
      assert s == s[..i] + [sep] + s[i + 1..];
  }

  /** Splitting a join of separator-free fields gives back the fields. */
  lemma {:induction false} SplitJoin(fields: seq<string>, sep: char)
    requires |fields| >= 1
    requires forall i :: 0 <= i < |fields| ==> sep !in fields[i]
    ensures Split(Join(fields, sep), sep) == fields
    decreases |fields|
  {
    if |fields| == 1 {
      var s := fields[0];
      assert forall j :: 0 <= j < |s| ==> s[j] != sep;
      assert First(s, (ch: char) => ch == sep).None?;
    } else {
      var f, tail := fields[0], Join(fields[1..], sep);
      assert Join(fields, sep) == f + [sep] + tail;
      SplitCons(f, tail, sep);
      SplitJoin(fields[1..], sep);
      assert fields == [f] + fields[1..];
    }
  }

  /** Splitting at the first separator. */
  lemma SplitCons(f: string, tail: string, sep: char)
    requires sep !in f
    ensures Split(f + [sep] + tail, sep) == [f] + Split(tail, sep)
  {
    var s := f + [sep] + tail;
    var p := (ch: char) => ch == sep;
    assert s[|f|] == sep;
    assert forall j :: 0 <= j < |f| ==> s[j] == f[j] && !p(s[j]);
    FirstAt(s, p, |f|);
    assert s[..|f|] == f;
    assert s[|f| + 1..] == tail;
  }

  function HexDigit(n: nat): (ch: char)
    requires n < 16
  {
    if n < 10 then ('0' as int + n) as char else ('a' as int + n - 10) as char
  }

  predicate IsLowerHexDigit(ch: char) {
    '0' <= ch <= '9' || 'a' <= ch <= 'f'
  }

  predicate IsHexDigit(ch: char) {
    IsLowerHexDigit(ch) || 'A' <= ch <= 'F'
  }

  /** `Buffer.prototype.toString('hex')`: two lowercase hex digits per byte,
      high nibble first. */
  function HexEncode(bytes: seq<Byte>): (r: string)
    ensures |r| == 2 * |bytes|
    ensures forall i :: 0 <= i < |r| ==> IsLowerHexDigit(r[i])
    decreases |bytes|
  {
    if |bytes| == 0 then ""
    else [HexDigit(bytes[0] / 16), HexDigit(bytes[0] % 16)] + HexEncode(bytes[1..])
  }

  /** Distinct byte strings have distinct hex encodings. */
  lemma {:induction false} HexEncodeInjective(a: seq<Byte>, b: seq<Byte>)
    requires HexEncode(a) == HexEncode(b)
    ensures a == b
    decreases |a|
  {
    if |a| > 0 {
      var ea, eb := HexEncode(a), HexEncode(b);
      assert ea[0] == eb[0] && ea[1] == eb[1];
      assert a[0] / 16 == b[0] / 16 && a[0] % 16 == b[0] % 16;
      assert ea[2..] == HexEncode(a[1..]) && eb[2..] == HexEncode(b[1..]);
      HexEncodeInjective(a[1..], b[1..]);
      assert a == [a[0]] + a[1..] && b == [b[0]] + b[1..];
    }
  }

  const ObjectIdLength: nat := 24

  predicate IsObjectIdHex(s: string) {
    |s| == ObjectIdLength && forall i :: 0 <= i < |s| ==> IsLowerHexDigit(s[i])
  }

  /** The canonical string form of a document identifier (`doc.id`): 24
      lowercase hex digits. */
  type ObjectId = s: string | IsObjectIdHex(s) witness "000000000000000000000000"

  /** Casting a route parameter to an ObjectId, as a query on `_id` or on
      a reference path does: 24 hex digits of either case denote the id
      with those digits lowercased; anything else is a cast error. */
  function CastObjectId(s: string): (r: Option<ObjectId>)
    ensures r.Some? <==> |s| == ObjectIdLength && forall i :: 0 <= i < |s| ==> IsHexDigit(s[i])
    ensures r.Some? ==> ToLower(r.value) == ToLower(s)
  {
    if |s| == ObjectIdLength && forall i :: 0 <= i < |s| ==> IsHexDigit(s[i]) then
      var id := ToLower(s);
      assert forall i :: 0 <= i < |id| ==> IsLowerHexDigit(id[i]);
      ToLowerIdempotent(s);
      Some(id)
    else None
  }

  /** An id written in its canonical form casts to itself. */
  lemma CastCanonical(id: ObjectId)
    ensures CastObjectId(id) == Some(id)
  {
    ToLowerIdempotent(id);
  }
}

=== FILE: user_controllers.dfy ===
/** The account lifecycle: registration, activation by the e-mailed token,
    login, the caller's own profile, public profiles, password change and
    self-deletion. Each handler takes the store and the request's parts and
    returns its outcome with the store it leaves behind. */
module UserControllers {
  import opened Seqs
  import opened Text
  import opened Errors
  import opened Externals
  import opened UserModel
  import opened Store
  import opened Http

  const MsgPasswordsNotEqual: string := "Passwords are not equal!"
  const MsgEmailInUse: string := "Email already in use. Please use a different email!"
  const MsgUsernameTaken: string := "This username is taken. Choose another username!"
  const MsgRegistered: string := "Registration completed! Please check your email to activate your account!"
  const MsgInvalidActivation: string := "Invalid activation token!"
  const MsgActivated: string := "User activated! You can now login to your account."
  const MsgCredentialsRequired: string := "Email and password fields are required."
  const MsgUnknownEmail: string := "Invalid credentials!"
  const MsgWrongPassword: string := "Invalid credentials"
  const MsgNotActive: string := "User is not active. Please activate your account and try again."
  const MsgLoggedIn: string := "Login successfull!"
  const MsgMe: string := "Logged in user data"
  const MsgUserNotFound: string := "User not found!"
  const MsgUpdateForbidden: string := "You are not authorized to update this user!"
  const MsgIncorrectPassword: string := "Incorrect password!"
  const MsgPasswordUpdated: string := "Password updated!"
  const MsgDeleteForbidden: string := "You are not authorized to delete this user!"

  function MsgUserDeleted(fname: string): string {
    "User " + fname + " deleted!"
  }

  /** Some stored user has this e-mail once lowercased. */
  predicate EmailTaken(db: Db, email: Option<string>) {
    email.Some? && exists i :: 0 <= i < |db.users| && db.users[i].email == ToLower(email.value)
  }

  predicate UsernameTaken(db: Db, username: Option<string>) {
    username.Some? && exists i :: 0 <= i < |db.users| && db.users[i].username == username.value
  }

  predicate IdTaken(db: Db, id: ObjectId) {
    exists i :: 0 <= i < |db.users| && db.users[i].id == id
  }

  function DraftOf(body: map<string, string>): Draft {
    Draft(Field(body, "fname"), Field(body, "lname"), Field(body, "username"),
          Field(body, "email"), Field(body, "password"))
  }

  /** The activation token e-mailed to the user: 20 random bytes in hex. */
  function RawActivationToken(rnd: Entropy): (t: string)
    ensures |t| == 2 * ActivationTokenBytes
    ensures forall i :: 0 <= i < |t| ==> IsLowerHexDigit(t[i])
  {
    HexEncode(rnd.tokenBytes)
  }

  /** The account a successful registration creates: the given names and
      username, the e-mail lowercased, the password bcrypt-hashed with a
      cost-12 salt, inactive, and holding the SHA-256 digest of the e-mailed
      token, never the token itself. */
  ghost predicate PendingAccount(env: Env, body: map<string, string>, rnd: Entropy, u: User) {
    && u.id == rnd.objectId
    && Field(body, "fname") == Some(u.fname)
    && Field(body, "lname") == Some(u.lname)
    && Field(body, "username") == Some(u.username)
    && Field(body, "email").Some? && u.email == ToLower(Field(body, "email").value)
    && Field(body, "password").Some?
    && u.password == env.bcryptHash(Field(body, "password").value, Salt(SaltRounds, rnd.saltNonce))
    && u.createdAt == rnd.loadedMs
    && !u.active
    && u.activationToken == Some(env.sha256Hex(RawActivationToken(rnd)))
  }

  /** `register`. The checks run in order: the password confirmation, the
      e-mail, the username, then schema validation and the unique indexes.
      The activation e-mail is sent without waiting for it: `send` returns a
      promise, which is always truthy, so the reply never depends on
      delivery. */
  function Register(env: Env, db: Db, body: map<string, string>, rnd: Entropy): (r: Reply)
    ensures Field(body, "password") != Field(body, "confirmPassword") ==>
              r == Reply(Fail(AppError(400, MsgPasswordsNotEqual)), db)
    ensures Field(body, "password") == Field(body, "confirmPassword") && EmailTaken(db, Field(body, "email")) ==>
              r == Reply(Fail(AppError(400, MsgEmailInUse)), db)
    ensures && Field(body, "password") == Field(body, "confirmPassword")
            && !EmailTaken(db, Field(body, "email")) && UsernameTaken(db, Field(body, "username")) ==>
              r == Reply(Fail(AppError(400, MsgUsernameTaken)), db)
    ensures r.outcome.Ok? || r.outcome.Fail?
    ensures r.outcome.Fail? ==> r.db == db
    ensures r.outcome.Ok? <==> && Field(body, "password") == Field(body, "confirmPassword")
                               && !EmailTaken(db, Field(body, "email"))
                               && !UsernameTaken(db, Field(body, "username"))
                               && WellFormedDraft(env, DraftOf(body))
                               && !IdTaken(db, rnd.objectId)
    ensures r.outcome.Ok? ==> && |r.db.users| == |db.users| + 1
                              && r.db == db.(users := db.users + [r.db.users[|db.users|]])
                              && PendingAccount(env, body, rnd, r.db.users[|db.users|])
                              && r.outcome == Ok(200, Some(MsgRegistered), Summary(Summarize(r.db.users[|db.users|])))
  {
    var password := Field(body, "password");
    if password != Field(body, "confirmPassword") then
      Reply(Fail(AppError(400, MsgPasswordsNotEqual)), db)
    else if FindUserByEmail(db, Field(body, "email")).Some? then
      Reply(Fail(AppError(400, MsgEmailInUse)), db)
    else if FindUserByUsername(db, Field(body, "username")).Some? then
      Reply(Fail(AppError(400, MsgUsernameTaken)), db)
    else
      var digest := env.sha256Hex(RawActivationToken(rnd));
      match NewUser(env, DraftOf(body), digest, rnd)
      case Failure(e) => Reply(Fail(Raised(e)), db)
      case Success(u) =>
        match InsertUser(db, u)
        case Failure(e) => Reply(Fail(Raised(e)), db)
        case Success(db') => Reply(Ok(200, Some(MsgRegistered), Summary(Summarize(u))), db')
  }

  /** `activateAccount`. The presented token is hashed and looked up among
      the stored digests; the first holder is activated and its digest
      cleared. The user's password is not loaded, so the save hook writes
      none. */
  function ActivateAccount(env: Env, db: Db, token: string, rnd: Entropy): (r: Reply)
    ensures (forall i :: 0 <= i < |db.users| ==> db.users[i].activationToken != Some(env.sha256Hex(token))) ==>
              r == Reply(Fail(AppError(400, MsgInvalidActivation)), db)
    ensures forall k :: FirstTokenHolder(db, k, env.sha256Hex(token)) ==>
              var u := db.users[k];
              var errs := ProfileErrors(env, Some(u.fname), Some(u.lname), Some(u.username), Some(u.email));
              && (errs != {} ==> r == Reply(Fail(Raised(ValidationError(errs))), db))
              && (errs == {} ==> r == Reply(Ok(200, Some(MsgActivated), NoData),
                                            db.(users := db.users[k := u.(active := true, activationToken := None)])))
    ensures r.outcome.Ok? || r.outcome.Fail?
    ensures r.outcome.Fail? ==> r.db == db
    ensures r.outcome.Ok? ==>
              && r.outcome == Ok(200, Some(MsgActivated), NoData)
              && exists k :: && 0 <= k < |db.users|
                             && db.users[k].activationToken == Some(env.sha256Hex(token))
                             && r.db == db.(users := db.users[k := db.users[k].(active := true, activationToken := None)])
  {
    var digest := env.sha256Hex(token);
    FirstTokenHolderFound(db, digest);
    match FindUserByActivationToken(db, digest)
    case None => Reply(Fail(AppError(400, MsgInvalidActivation)), db)
    case Some(k) =>
      var u := db.users[k];
      var errs := ProfileErrors(env, Some(u.fname), Some(u.lname), Some(u.username), Some(u.email));
      if errs != {} then Reply(Fail(Raised(ValidationError(errs))), db)
      else
        match PreSave(env, None, false, Salt(SaltRounds, rnd.saltNonce))
        case Rejected => Reply(Fail(Raised(IllegalArguments)), db)
        case Released(_, _, _) =>
          var u' := u.(active := true, activationToken := None);
          Reply(Ok(200, Some(MsgActivated), NoData), db.(users := db.users[k := u']))
  }

  /** `tokenResponse`: 200 with the login message and a token that, under
      sound libraries, decodes to the user's session claims. */
  function TokenResponse(env: Env, u: User, nowMs: nat): (r: Outcome)
    ensures r.Ok? && r.status == 200 && r.message == Some(MsgLoggedIn) && r.data.Token?
    ensures Sound(env) ==> env.jwtDecode(r.data.token) == Some(SessionClaims(u, nowMs))
  {
    Ok(200, Some(MsgLoggedIn), Token(SignedJwt(env, u, nowMs)))
  }

  /** `login`. In order: both fields must be truthy (400); the e-mail must
      belong to a user (401, "Invalid credentials!"); the password must match
      (401, "Invalid credentials", without the exclamation mark); the account
      must be active (400); then a session token is issued. */
  function Login(env: Env, db: Db, body: map<string, string>, nowMs: nat): (r: Outcome)
    ensures !Truthy(Field(body, "email")) || !Truthy(Field(body, "password")) ==>
              r == Fail(AppError(400, MsgCredentialsRequired))
    ensures Truthy(Field(body, "email")) && Truthy(Field(body, "password")) && !EmailTaken(db, Field(body, "email")) ==>
              r == Fail(AppError(401, MsgUnknownEmail))
    ensures && Truthy(Field(body, "email")) && Truthy(Field(body, "password"))
            && FindUserByEmail(db, Field(body, "email")).Some?
            && !env.bcryptCompare(Field(body, "password").value, db.users[FindUserByEmail(db, Field(body, "email")).value].password) ==>
              r == Fail(AppError(401, MsgWrongPassword))
    ensures (&& Truthy(Field(body, "email")) && Truthy(Field(body, "password"))
             && FindUserByEmail(db, Field(body, "email")).Some?
             && var u := db.users[FindUserByEmail(db, Field(body, "email")).value];
                env.bcryptCompare(Field(body, "password").value, u.password) && !u.active) ==>
              r == Fail(AppError(400, MsgNotActive))
    ensures r.Ok? || r.Fail?
    ensures r.Ok? <==> && Truthy(Field(body, "email")) && Truthy(Field(body, "password"))
                       && FindUserByEmail(db, Field(body, "email")).Some?
                       && var u := db.users[FindUserByEmail(db, Field(body, "email")).value];
                          env.bcryptCompare(Field(body, "password").value, u.password) && u.active
    ensures r.Ok? ==> exists k :: && 0 <= k < |db.users|
                                  && db.users[k].email == ToLower(Field(body, "email").value)
                                  && db.users[k].active
                                  && r == Ok(200, Some(MsgLoggedIn), Token(SignedJwt(env, db.users[k], nowMs)))
    ensures r.Fail? && r.error.AppError? && r.error.status == 400 ==>
              r.error.message == MsgCredentialsRequired || r.error.message == MsgNotActive
  {
    var email := Field(body, "email");
    var password := Field(body, "password");
    if !Truthy(email) || !Truthy(password) then
      Fail(AppError(400, MsgCredentialsRequired))
    else match FindUserByEmail(db, email)
      case None => Fail(AppError(401, MsgUnknownEmail))
      case Some(k) =>
        var u := db.users[k];
        if CheckPassword(env, password, u.password) != Some(true) then Fail(AppError(401, MsgWrongPassword))
        else if !u.active then Fail(AppError(400, MsgNotActive))
        else TokenResponse(env, u, nowMs)
  }

  /** `me`: the caller's profile, as the guard loaded it. */
  function Me(db: Db, caller: User): (r: Outcome)
    ensures r.Ok? && r.status == 200 && r.data.UserProfile?
    ensures var p := r.data.profile;
            && p.id == caller.id && p.fname == caller.fname && p.lname == caller.lname
            && p.username == caller.username && p.email == caller.email
            && (forall i :: 0 <= i < |p.quotes| ==> p.quotes[i] in db.quotes && p.quotes[i].createdBy == caller.id)
            && (forall i :: 0 <= i < |db.quotes| && db.quotes[i].createdBy == caller.id ==> db.quotes[i] in p.quotes)
    ensures r.message == Some(MsgMe)
    ensures r.data.profile.createdAt == caller.createdAt && r.data.profile.quotes == QuotesBy(db, caller.id)
  {
    Ok(200, Some(MsgMe), UserProfile(ProfileOf(db, caller)))
  }

  /** `getUserByUsername`: the public profile of the user with exactly that
      username, 404 when there is none. */
  function GetUserByUsername(db: Db, username: string): (r: Outcome)
    ensures r.Fail? <==> forall i :: 0 <= i < |db.users| ==> db.users[i].username != username
    ensures r.Fail? ==> r == Fail(AppError(404, MsgUserNotFound))
    ensures r.Ok? ==> exists i :: && 0 <= i < |db.users| && db.users[i].username == username
                                  && r == Ok(200, None, UserProfile(ProfileOf(db, db.users[i])))
  {
    match FindUserByUsername(db, Some(username))
    case None => Fail(AppError(404, MsgUserNotFound))
    case Some(k) => Ok(200, None, UserProfile(ProfileOf(db, db.users[k])))
  }

  /** The password a password change stores: the bcrypt hash of the new
      password, unless the new password is the stored hash string itself, in
      which case the path is not modified and nothing is written. */
  function StoredAfterChange(env: Env, stored: string, newPassword: string, rnd: Entropy): string {
    if newPassword == stored then stored else env.bcryptHash(newPassword, Salt(SaltRounds, rnd.saltNonce))
  }

  /** `updateUser`: a password change. In order: the id must be an ObjectId
      (cast error), must name a user (404), must be the caller's own (403);
      the old password must be present (bcrypt rejects) and match (400); the
      new password must pass the schema (validation error). Only that user's
      password changes. */
  function UpdateUser(env: Env, db: Db, caller: User, idParam: string, body: map<string, string>, rnd: Entropy): (r: Reply)
    ensures CastObjectId(idParam).None? ==> r == Reply(Fail(Raised(CastError)), db)
    ensures CastObjectId(idParam).Some? && !IdTaken(db, CastObjectId(idParam).value) ==>
              r == Reply(Fail(AppError(404, MsgUserNotFound)), db)
    ensures && CastObjectId(idParam).Some? && IdTaken(db, CastObjectId(idParam).value)
            && CastObjectId(idParam).value != caller.id ==>
              r == Reply(Fail(AppError(403, MsgUpdateForbidden)), db)
    ensures forall k :: CastObjectId(idParam) == Some(caller.id) && FirstUserWithId(db, k, caller.id) ==>
              var u := db.users[k];
              var oldPassword := Field(body, "oldPassword");
              var newPassword := Field(body, "newPassword");
              var errs := ProfileErrors(env, Some(u.fname), Some(u.lname), Some(u.username), Some(u.email))
                          + PasswordErrors(newPassword);
              && (oldPassword.None? ==> r == Reply(Fail(Raised(IllegalArguments)), db))
              && (oldPassword.Some? && !env.bcryptCompare(oldPassword.value, u.password) ==>
                    r == Reply(Fail(AppError(400, MsgIncorrectPassword)), db))
              && (oldPassword.Some? && env.bcryptCompare(oldPassword.value, u.password) && errs != {} ==>
                    r == Reply(Fail(Raised(ValidationError(errs))), db))
              && (oldPassword.Some? && env.bcryptCompare(oldPassword.value, u.password) && errs == {} ==>
                    r == Reply(Ok(200, Some(MsgPasswordUpdated), NoData),
                               db.(users := db.users[k := u.(password := StoredAfterChange(env, u.password, newPassword.value, rnd))])))
    ensures r.outcome.Ok? || r.outcome.Fail?
    ensures r.outcome.Fail? ==> r.db == db
    ensures r.outcome.Ok? ==>
              && r.outcome == Ok(200, Some(MsgPasswordUpdated), NoData)
              && CastObjectId(idParam) == Some(caller.id)
              && Field(body, "oldPassword").Some? && Field(body, "newPassword").Some?
              && |Field(body, "newPassword").value| >= PasswordMinLength
              && exists k :: && 0 <= k < |db.users| && db.users[k].id == caller.id
                             && env.bcryptCompare(Field(body, "oldPassword").value, db.users[k].password)
                             && r.db == db.(users := db.users[k := db.users[k].(password :=
                                  StoredAfterChange(env, db.users[k].password, Field(body, "newPassword").value, rnd))])
  {
    FirstUserWithIdFound(db, caller.id);
    match CastObjectId(idParam)
    case None => Reply(Fail(Raised(CastError)), db)
    case Some(id) =>
      match FindUserById(db, id)
      case None => Reply(Fail(AppError(404, MsgUserNotFound)), db)
      case Some(k) =>
        var u := db.users[k];
        if u.id != caller.id then Reply(Fail(AppError(403, MsgUpdateForbidden)), db)
        else match CheckPassword(env, Field(body, "oldPassword"), u.password)
          case None => Reply(Fail(Raised(IllegalArguments)), db)
          case Some(false) => Reply(Fail(AppError(400, MsgIncorrectPassword)), db)
          case Some(true) =>
            var newPassword := Field(body, "newPassword");
            var errs := ProfileErrors(env, Some(u.fname), Some(u.lname), Some(u.username), Some(u.email))
                        + PasswordErrors(newPassword);
            if errs != {} then Reply(Fail(Raised(ValidationError(errs))), db)
            else
              var modified := newPassword != Some(u.password);
              match PreSave(env, newPassword, modified, Salt(SaltRounds, rnd.saltNonce))
              case Rejected => Reply(Fail(Raised(IllegalArguments)), db)
              case Released(_, written, _) =>
                var u' := u.(password := if written.Some? then written.value else u.password);
                Reply(Ok(200, Some(MsgPasswordUpdated), NoData), db.(users := db.users[k := u']))
  }

  /** `deleteUser`: the id must be an ObjectId, name a user (404) and be the
      caller's own (403); then exactly that user is removed. The user's
      quotes stay, with a dangling owner reference. */
  function DeleteUser(db: Db, caller: User, idParam: string): (r: Reply)
    ensures CastObjectId(idParam).None? ==> r == Reply(Fail(Raised(CastError)), db)
    ensures CastObjectId(idParam).Some? && !IdTaken(db, CastObjectId(idParam).value) ==>
              r == Reply(Fail(AppError(404, MsgUserNotFound)), db)
    ensures && CastObjectId(idParam).Some? && IdTaken(db, CastObjectId(idParam).value)
            && CastObjectId(idParam).value != caller.id ==>
              r == Reply(Fail(AppError(403, MsgDeleteForbidden)), db)
    ensures forall k :: CastObjectId(idParam) == Some(caller.id) && FirstUserWithId(db, k, caller.id) ==>
              r == Reply(Ok(200, Some(MsgUserDeleted(db.users[k].fname)), NoData),
                         db.(users := db.users[..k] + db.users[k + 1..]))
    ensures r.outcome.Ok? || r.outcome.Fail?
    ensures r.outcome.Fail? ==> r.db == db
    ensures r.outcome.Ok? ==>
              && CastObjectId(idParam) == Some(caller.id)
              && r.db.quotes == db.quotes
              && exists k :: && 0 <= k < |db.users| && db.users[k].id == caller.id
                             && r.db.users == db.users[..k] + db.users[k + 1..]
                             && r.outcome == Ok(200, Some(MsgUserDeleted(db.users[k].fname)), NoData)
  {
    FirstUserWithIdFound(db, caller.id);
    match CastObjectId(idParam)
    case None => Reply(Fail(Raised(CastError)), db)
    case Some(id) =>
      match FindUserById(db, id)
      case None => Reply(Fail(AppError(404, MsgUserNotFound)), db)
      case Some(k) =>
        var u := db.users[k];
        if u.id != caller.id then Reply(Fail(AppError(403, MsgDeleteForbidden)), db)
        else Reply(Ok(200, Some(MsgUserDeleted(u.fname)), NoData), db.(users := db.users[..k] + db.users[k + 1..]))
  }
}

=== FILE: user_model.dfy ===
/** The user schema: field constraints and defaults, the pre-save hook that
    hashes the password, `checkPassword`, and the claims of the session token
    `getSignedJWT` issues. */
module UserModel {
  import opened Seqs
  import opened Text
  import opened Errors
  import opened Externals

  const UsernameMinLength: nat := 5
  const PasswordMinLength: nat := 6
  const SaltRounds: nat := 12
  const JwtLifetimeSeconds: nat := 3600

  /** A stored user document. `password` holds the bcrypt hash and
      `activationToken` the SHA-256 digest of the e-mailed token; both, and
      `active`, are excluded from query results unless selected. */
  datatype User = User(
    id: ObjectId,
    fname: string,
    lname: string,
    username: string,
    email: string,
    password: string,
    createdAt: nat,
    active: bool,
    activationToken: Option<string>)

  /** The fields handed to `User.create`, each possibly missing. */
  datatype Draft = Draft(
    fname: Option<string>,
    lname: Option<string>,
    username: Option<string>,
    email: Option<string>,
    password: Option<string>)

  /** The `required` validator of a string path: present and non-empty. */
  predicate Required(v: Option<string>) {
    Truthy(v)
  }

  /** The `minlength` validator; like every validator but `required`, it is
      not run on a missing value. */
  predicate MinLength(v: Option<string>, n: nat) {
    v.None? || |v.value| >= n
  }

  /** The `lowercase: true` setter, applied when the path is assigned and when
      a query filter on the path is cast. */
  function LowercaseSetter(v: Option<string>): Option<string> {
    match v
    case None => None
    case Some(s) => Some(ToLower(s))
  }

  /** The failing paths among first name, last name, username and e-mail;
      `email` is the value after the setter. */
  function ProfileErrors(env: Env, fname: Option<string>, lname: Option<string>,
                         username: Option<string>, email: Option<string>): set<Path>
  {
    (if Required(fname) then {} else {FName})
    + (if Required(lname) then {} else {LName})
    + (if Required(username) && MinLength(username, UsernameMinLength) then {} else {Username})
    + (if Required(email) && env.isEmail(email.value) then {} else {Email})
  }

  function PasswordErrors(password: Option<string>): set<Path> {
    if Required(password) && MinLength(password, PasswordMinLength) then {} else {Password}
  }

  /** What every stored user satisfies: the schema constraints on its paths
      (the e-mail lowercased and accepted by the validator), and the
      activation-token digest is present exactly while the account is not
      active. */
  ghost predicate WellFormed(env: Env, u: User) {
    && u.fname != ""
    && u.lname != ""
    && |u.username| >= UsernameMinLength
    && u.email != ""
    && IsLower(u.email)
    && env.isEmail(u.email)
    && (u.active <==> u.activationToken.None?)
  }

  /** Revalidating a stored document on save: a well-formed user passes. */
  lemma WellFormedRevalidates(env: Env, u: User)
    requires WellFormed(env, u)
    ensures ProfileErrors(env, Some(u.fname), Some(u.lname), Some(u.username), Some(u.email)) == {}
  {
  }

  /** A run of the pre-save hook. `Released` records how many times the hook
      called `next`, the password the save writes (if any) and the password
      left on the in-memory document; `Rejected` is a hook that failed before
      calling `next`, which fails the save. */
  datatype HookRun =
    | Released(nextCalls: nat, written: Option<string>, inMemory: Option<string>)
    | Rejected

  /** The pre-save hook as written. When the password is not modified it
      calls `next()` but does not return, so it goes on to rehash whatever the
      document holds and calls `next()` a second time. The middleware runner
      honours only the first call, which releases the save before the rehash
      finishes, so nothing is written then; a password that was not loaded
      makes bcrypt reject, and that rejection is ignored for the same reason.
      A modified password is hashed with the salt and written. */
  function PreSave(env: Env, password: Option<string>, modified: bool, salt: Salt): (r: HookRun)
    ensures r.Rejected? <==> modified && password.None?
    ensures r.Released? ==> (r.written.Some? <==> modified)
    ensures r.Released? && modified ==> r.written == r.inMemory && r.nextCalls == 1
    ensures r.Released? && !modified && password.Some? ==> r.nextCalls == 2 && r.inMemory.Some?
  {
    if !modified then
      match password
      case None => Released(1, None, None)
      case Some(p) => Released(2, None, Some(env.bcryptHash(p, salt)))
    else
      match password
      case None => Rejected
      case Some(p) =>
        var h := env.bcryptHash(p, salt);
        Released(1, Some(h), Some(h))
  }

  /** `checkPassword`: bcrypt's comparison of a candidate with the stored
      hash; a missing candidate makes bcrypt reject (`None`). */
  function CheckPassword(env: Env, candidate: Option<string>, stored: string): (r: Option<bool>)
    ensures r.None? <==> candidate.None?
    ensures candidate.Some? ==> r == Some(env.bcryptCompare(candidate.value, stored))
  {
    match candidate
    case None => None
    case Some(p) => Some(env.bcryptCompare(p, stored))
  }

  /** After a save that hashed a new password, `checkPassword` accepts that
      password. */
  lemma HashedPasswordChecks(env: Env, p: string, salt: Salt)
    requires Sound(env)
    ensures PreSave(env, Some(p), true, salt).Released?
    ensures CheckPassword(env, Some(p), PreSave(env, Some(p), true, salt).written.value) == Some(true)
  {
  }

  /** Default of `createdAt` as written: `default: Date.now()` is evaluated
      once, when the schema is built, so every document gets the load time. */
  function DefaultCreatedAtAsWritten(loadedMs: nat, nowMs: nat): nat {
    loadedMs
  }

  /** Default of `createdAt` as evidently intended (`default: Date.now`):
      the time the document is created. */
  function DefaultCreatedAt(loadedMs: nat, nowMs: nat): nat {
    nowMs
  }

  /** As written, documents created at different times in one process carry
      the same creation time. */
  lemma CreatedAtFrozenAsWritten(loadedMs: nat, t1: nat, t2: nat)
    ensures DefaultCreatedAtAsWritten(loadedMs, t1) == DefaultCreatedAtAsWritten(loadedMs, t2)
  {
  }

  /** With the corrected default, the creation time tells documents created
      at different times apart, and it does not depend on the load time. */
  lemma CreatedAtTracksCreation(l1: nat, l2: nat, t1: nat, t2: nat)
    ensures DefaultCreatedAt(l1, t1) == DefaultCreatedAt(l2, t2) <==> t1 == t2
  {
  }

  /** The new user `User.create` builds once validation passed: the e-mail
      lowercased, the password hashed by the hook, inactive, with the given
      activation-token digest, and the creation time the default as written
      gives: the time the schema was loaded. A validation error naming the failing paths otherwise. */
  function NewUser(env: Env, d: Draft, tokenDigest: string, rnd: Entropy): (r: Result<User, Thrown>)
    ensures r.Failure? ==> r.error.ValidationError? && r.error.paths != {}
    ensures r.Success? ==> && WellFormedDraft(env, d)
                           && r.value.id == rnd.objectId
                           && r.value.fname == d.fname.value
                           && r.value.lname == d.lname.value
                           && r.value.username == d.username.value
                           && r.value.email == ToLower(d.email.value)
                           && r.value.password == env.bcryptHash(d.password.value, Salt(SaltRounds, rnd.saltNonce))
                           && r.value.createdAt == rnd.loadedMs
                           && !r.value.active
                           && r.value.activationToken == Some(tokenDigest)
    ensures r.Success? <==> WellFormedDraft(env, d)
  {
    var email := LowercaseSetter(d.email);
    var errs := ProfileErrors(env, d.fname, d.lname, d.username, email) + PasswordErrors(d.password);
    if errs != {} then
      Failure(ValidationError(errs))
    else
      match PreSave(env, d.password, true, Salt(SaltRounds, rnd.saltNonce))
      case Rejected => Failure(ValidationError({Password}))
      case Released(_, written, _) =>
        Success(User(rnd.objectId, d.fname.value, d.lname.value, d.username.value, email.value,
                     written.value, DefaultCreatedAtAsWritten(rnd.loadedMs, rnd.nowMs), false, Some(tokenDigest)))
  }

  /** The schema constraints on creation input, stated path by path. */
  ghost predicate WellFormedDraft(env: Env, d: Draft) {
    && d.fname.Some? && d.fname.value != ""
    && d.lname.Some? && d.lname.value != ""
    && d.username.Some? && |d.username.value| >= UsernameMinLength
    && d.email.Some? && d.email.value != "" && env.isEmail(ToLower(d.email.value))
    && d.password.Some? && |d.password.value| >= PasswordMinLength
  }

  /** A user built from valid input is well formed, and is pending activation. */
  lemma NewUserWellFormed(env: Env, d: Draft, tokenDigest: string, rnd: Entropy)
    requires NewUser(env, d, tokenDigest, rnd).Success?
    ensures WellFormed(env, NewUser(env, d, tokenDigest, rnd).value)
  {
  }

  /** The payload `getSignedJWT` signs: id, names, username and e-mail, issued
      now and expiring an hour later. */
  function SessionClaims(u: User, nowMs: nat): (c: Claims)
    ensures c.id == u.id && c.fname == u.fname && c.lname == u.lname
    ensures c.username == u.username && c.email == u.email
    ensures c.iat * 1000 <= nowMs < (c.iat + 1) * 1000
    ensures c.exp - c.iat == JwtLifetimeSeconds
  {
    var iat := nowMs / 1000;
    Claims(u.id, u.fname, u.lname, u.username, u.email, iat, iat + JwtLifetimeSeconds)
  }

  /** `getSignedJWT`: under sound libraries the token carries exactly the
      session claims. */
  function SignedJwt(env: Env, u: User, nowMs: nat): (t: string)
    ensures Sound(env) ==> env.jwtDecode(t) == Some(SessionClaims(u, nowMs))
  {
    env.jwtSign(SessionClaims(u, nowMs))
  }

  /** A session token decodes to exactly the user's id, names, username and
      e-mail, with an expiry one hour after its issue time. */
  lemma SessionTokenClaims(env: Env, u: User, nowMs: nat)
    requires Sound(env)
    ensures env.jwtDecode(SignedJwt(env, u, nowMs)).Some?
    ensures var c := env.jwtDecode(SignedJwt(env, u, nowMs)).value;
            && c.id == u.id && c.fname == u.fname && c.lname == u.lname
            && c.username == u.username && c.email == u.email
            && c.iat == nowMs / 1000 && c.exp == c.iat + 3600
  {
  }
}
